=== FILE: README.md ===
# underi18n management commands, modelled in Dafny

A model of two Django management-command extensions. They connect
underscore.js templates with Django's gettext workflow.

- **makemessages** (`make_messages.py`) replaces Django's `templatize`. A
  file that belongs to a registered template directory and extension is not
  handed to Django. It is read, every `<%_ … _%>` marker is found with
  `re.findall('<%_(.*?)_%>', content, re.DOTALL)`, and each distinct
  captured body is rewritten as a Python-looking line `_("""…""")` with
  backslashes and double quotes escaped. Any other file goes to Django's
  own `templatize`. The registered scope is every file that `os.walk`
  finds under a registered directory whose name ends with a registered
  extension (`update_matches`, `find_paths`).
- **compilemessages** (`compile_messages.py`) runs after Django compiles
  each `.po` file to `.mo`. For each `(dirpath, f)` location it:
  1. checks that the `.mo` file exists;
  2. derives `<output_dir>/<locale>/<LC_MESSAGES>/<name>.json` from the last
     two components of `dirpath`;
  3. creates that directory if needed;
  4. loads the catalog, drops the metadata entry `''`, and writes the rest
     as JSON.

  The output directory is `--output-dir`, or else `LOCALE_PATHS[0]`.

Modules:

- `Wrappers`: `Option` and `Result`.
- `Text`: `str.split`, `str.join` and `endswith`.
- `Paths`: `posixpath.join` and `posixpath.splitext`.
- `Markers`: the regex scan, plus a declarative reference definition of
  what `re.findall` returns.
- `Escaping`: `escape`, the line builder, and a reader of the generated
  line.
- `Scope`: the dictionary built by `update_matches` and `find_paths`.
- `MakeMessages`: `templatize`.
- `CompileMessages`: `convert`, the per-location step, the loop, and
  `handle`.

The file system, `os.path.abspath`, `os.walk`, reading a file and Django's
own `templatize` are parameters of the model.

An unreadable registered directory raises nothing: `os.walk` yields no
entries, so the directory contributes no files (make_messages.py:58).

When a locale's catalog directory cannot be created, the code reports
`self.output_dir` rather than the directory it failed to create. The model
keeps this, and `ProcessLocation`'s contract states it:
`CannotCreateDirectory(outputDir)`.

## Model

| member | source | states |
|---|---|---|
| Markers.FirstEnd | management/commands/make_messages.py:47-52 | the lazy group ends at the first `_%>` at or after the given position, and at none before it; `None` exactly when no `_%>` follows |
| Markers.FindAll | management/commands/make_messages.py:95-96 | no captured body contains the end delimiter `_%>` |
| Markers.FindAllIsAFindAll | management/commands/make_messages.py:95-96 | the scanner's list meets the reference definition of `re.findall`: the body of the leftmost match, then the matches in the text after it; empty exactly when the pattern matches nowhere |
| Markers.IsFindAllUnique | management/commands/make_messages.py:95-96 | the reference definition admits only one list per text |
| Markers.FindAllCharacterized | management/commands/make_messages.py:95-96 | a list is the `re.findall` result of a text if and only if it is the scanner's result |
| Markers.Bodies | management/commands/make_messages.py:96 | `set(re.findall(...))`: a string is a body if and only if it is in the `re.findall` result of the text under the reference definition; no body contains `_%>` |
| Markers.NoMatchNoBodies | management/commands/make_messages.py:95-96 | a text in which the pattern matches nowhere yields no bodies |
| Markers.MarkerThen | management/commands/make_messages.py:47-52 | a marker whose body has no `_%>` is captured whole (newlines and `<%_` included, because of DOTALL), and scanning resumes right after it |
| Markers.NoEndTagNoBodies | management/commands/make_messages.py:95-96 | an unterminated `<%_` yields nothing and raises nothing |
| Markers.ShortTextNoBodies | management/commands/make_messages.py:49-52 | a text shorter than six characters (the size of `<%__%>`) yields nothing |
| Markers.SharedUnderscoreNoMatch | management/commands/make_messages.py:49-52 | `<%_%>` matches nothing: the two delimiters cannot share the underscore |
| Markers.NestedStartIsBody | management/commands/make_messages.py:47-52 | in `<%_ a <%_ b _%>` the body runs from the first `<%_` to the first `_%>` |
| Markers.RepeatedMarkerOneBody | management/commands/make_messages.py:96 | a marker repeated in a template gives one distinct body |
| Markers.TwoMarkers | management/commands/make_messages.py:95-96 | two markers separated by one character other than `<` give their two bodies, in order |
| Markers.TwoLinesTwoBodies | management/commands/make_messages.py:95-96 | two markers on two lines, with bodies free of `%` (such as ` Save ` and ` Cancel `), give exactly those two bodies |
| Escaping.Escape | management/commands/make_messages.py:98-101 | `escape`: it acts on each character independently (`\` becomes `\\`, `"` becomes `\"`, every other character is kept); unescaping gives the input back; every `"` of the result follows an odd run of backslashes and the result ends on an even run, so nothing in it can close the `"""` literal |
| Escaping.PassesAreCharwise | management/commands/make_messages.py:98-101 | doing the backslash pass before the quote pass means the backslashes added for quotes are not doubled again |
| Escaping.UnescapeEscapeEach | management/commands/make_messages.py:98-101 | unescaping the per-character escape gives the original string back |
| Escaping.EscapeEachQuotes | management/commands/make_messages.py:98-101 | in the escaped text every `"` is escaped and the final run of backslashes is even |
| Escaping.Line | management/commands/make_messages.py:105 | the line `_("""…""")` built for a body reads back, as a triple-quoted literal, to exactly that body |
| Escaping.ReadEscaped | management/commands/make_messages.py:105-106 | a reader of the literal recovers the original string from its escaped form and stops at the closing `"""` |
| Escaping.LineInjective | management/commands/make_messages.py:105-106 | two lines are equal if and only if their bodies are equal |
| Text.SplitOn | management/commands/compile_messages.py:65 | `split('/')` returns at least one piece, no piece holds `/`, and joining the pieces with `/` gives the input back |
| Text.SplitUnique | management/commands/compile_messages.py:65 | any list of `/`-free pieces that joins to the input is the result of `split` |
| Text.JoinWithAppend | management/commands/make_messages.py:105-106 | joining two non-empty lists puts exactly one separator between the two parts |
| Text.SplitLastTwo | management/commands/compile_messages.py:65-66 | for `prefix/a/b`, with `a` and `b` free of `/`, the last two pieces are `a` and `b` |
| Paths.Join | management/commands/compile_messages.py:61 | `os.path.join`: the result ends with the second part, and an absolute second part replaces the first. Otherwise the result starts with the first part, and exactly one `/` is put between the two parts when the first is non-empty and does not end in `/`; nothing is added otherwise |
| Paths.SplitOfJoin | management/commands/compile_messages.py:66 | joining a non-empty path that does not end in `/` with a relative part: the components of the result are those of the path followed by those of the part |
| Paths.SplitOfJoinAfterSeparator | management/commands/make_messages.py:63 | joining an empty path, or one that already ends in `/`, with a relative part adds no separator: the empty last component of the path gives way to the components of the part |
| Paths.Stem | management/commands/compile_messages.py:59 | `splitext(f)[0]` is a prefix of `f` followed by a valid extension; it stops at the one place `f` may be cut, and it is all of `f` exactly when there is no such place |
| Paths.SplitExt | management/commands/compile_messages.py:59 | `os.path.splitext`: root and extension concatenate back to the input; the extension is empty exactly when no place may cut the path, and otherwise it starts at a valid cut: the last dot, in the last component, with something other than dots before it in that component |
| Paths.CutUnique | management/commands/compile_messages.py:59 | at most one place may cut a path, so the extension `splitext` returns is determined |
| Paths.SplitExtOfFileName | management/commands/compile_messages.py:59 | `name.ext` splits into `name` and `.ext` when `name` is not all dots and neither part holds `/`, and `ext` holds no dot |
| Scope.FilterSuffix | management/commands/make_messages.py:61 | a name is kept if and only if it is one of the walked names and ends with the extension |
| Scope.EnsureKey | management/commands/make_messages.py:55-60 | adding an empty list under a missing key changes no listed path and keeps the dictionary's invariants |
| Scope.AlreadyListed | management/commands/make_messages.py:62 | as written, the check never fires for a `/`-free file name against a list whose paths all hold `/`; corrected, it fires exactly when the append would list a path twice |
| Scope.AddFiles | management/commands/make_messages.py:61-63 | the append loop keeps every listed path and adds only joined paths of the given names; with the corrected check, or with `/`-free names and no bare name listed under a non-empty root, every name's path ends up listed; the corrected check keeps each list free of repeats |
| Scope.AddEntries | management/commands/make_messages.py:58-63 | one walk keeps every listed path and adds only `join(root, name)` for walked names matching the extension; with the corrected check, or with `/`-free names and no bare name listed under a non-empty root, every such path is listed; the corrected check keeps lists free of repeats |
| Scope.UpdateMatches | management/commands/make_messages.py:54-63 | `update_matches` gives the directory a key, loses no listed path and adds only the joined paths of walked names with the extension; with the corrected check, or with `/`-free names and no bare name listed under a non-empty root, all of them are listed |
| Scope.OverExtensions | management/commands/make_messages.py:73-74 | the loop over extensions adds only what some extension finds under the directory; with the corrected check, or with `/`-free names and no bare name listed under a non-empty root, it adds all of it |
| Scope.OverDirectories | management/commands/make_messages.py:72-74 | the loop over directories adds only what some directory and extension find; with the corrected check, or with `/`-free names and no bare name listed under a non-empty root, it adds all of it |
| Scope.FindMatches | management/commands/make_messages.py:69-74 | the `all_matches` dictionary lists only discovered paths; it lists every one of them with the corrected check, or with the check as written when the walk yields `/`-free names; with the corrected check no list repeats a path |
| Scope.AllPaths | management/commands/make_messages.py:76-77 | `all_paths` collects every path of every list of the dictionary, and nothing else |
| Scope.AllPathsExtend | management/commands/make_messages.py:76-77 | taking the lists one key at a time, in any order, collects the same paths |
| Scope.FindPaths | management/commands/make_messages.py:65-79 | a path is returned by `find_paths` if and only if it is `join(root, name)` for a root walked under a registered directory and a name ending with a registered extension; when the walk yields `/`-free names, the check as written gives the same set |
| Scope.DiscoveredMono | management/commands/make_messages.py:72-74 | registering more directories and extensions never drops a path from the scope |
| Scope.ScopeIgnoresOrderAndRepeats | management/commands/make_messages.py:72-74 | the scope depends only on which directories and extensions are registered, not on their order or repetitions |
| Scope.CorrectedListsDistinct | management/commands/make_messages.py:62-63 | with the corrected check no path is listed twice under one root |
| Scope.AsWrittenListsTwice | management/commands/make_messages.py:62-63 | as written, registering `t` twice lists `t/a.html` twice under `t` |
| Scope.CorrectedListsOnce | management/commands/make_messages.py:62-63 | with the corrected check, the same registry lists `t/a.html` once |
| MakeMessages.ScopePaths | management/commands/make_messages.py:84 | the absolute paths of the scope are exactly the absolute paths of the discovered templates |
| MakeMessages.InScope | management/commands/make_messages.py:84-88 | an origin is in scope if and only if it is truthy and its absolute path is that of some discovered template |
| MakeMessages.Enumerate | management/commands/make_messages.py:96 | iterating a set visits every element exactly once, in an order left open |
| MakeMessages.LinesOf | management/commands/make_messages.py:105-106 | one line per body of the enumeration, in the same order, and line `i` reads back to body `i` |
| MakeMessages.LinesOfEnumeration | management/commands/make_messages.py:105-106 | the lines of any enumeration of the bodies list each body's line once and nothing else |
| MakeMessages.BuildUnits | management/commands/make_messages.py:105-106 | the list comprehension gives one distinct `_("""…""")` line per distinct body, and no other line |
| MakeMessages.Templatize | management/commands/make_messages.py:81-113 | out of scope, the result is Django's `templatize(src, origin)`. In scope, it is the newline-joined lines of the distinct bodies of the file at `origin` (not of `src`); with no markers it is the empty string |
| MakeMessages.LinesReadBack | management/commands/make_messages.py:105-106 | every generated line reads back to a body of the template, and every body is read back from some line |
| MakeMessages.LinesReadBackToBodies | management/commands/make_messages.py:105-106 | every generated line reads back to one of the template's bodies |
| MakeMessages.BodiesReadBackFromLines | management/commands/make_messages.py:105-106 | every body of the template is read back from some generated line |
| MakeMessages.RepeatedMarkerOneLine | management/commands/make_messages.py:96-106 | a template holding the same marker twice yields one line |
| MakeMessages.TwoBodiesTwoLines | management/commands/make_messages.py:105-106 | two distinct bodies give their two lines, in one order or the other |
| CompileMessages.Convert | management/commands/compile_messages.py:91 | succeeds if and only if the catalog has the `''` entry (otherwise a KeyError). The result holds every other entry, unchanged, and no `''` |
| CompileMessages.ConvertThenRestoreHeader | management/commands/compile_messages.py:91 | putting the header entry back into the converted map restores the loaded catalog |
| CompileMessages.AddHeaderThenConvert | management/commands/compile_messages.py:88-92 | a message map with any header added converts back to that message map |
| CompileMessages.ConvertExample | management/commands/compile_messages.py:91-92 | `{'': header, 'Save': 'Enregistrer'}` converts to `{'Save': 'Enregistrer'}` |
| CompileMessages.ConvertFile | management/commands/compile_messages.py:87-94 | a `.mo` file that does not open or parse stops the conversion with an IOError; otherwise it succeeds exactly when the loaded catalog has a header and the output file can be written, and the result records the header-less catalog for that output path. Each failure names its cause: an unreadable file gives `UnreadableCatalog(mo_path)`, a catalog without `''` gives the KeyError `MissingHeader` before the output is opened, and an unwritable output gives `CannotWrite(catalog_path)` |
| CompileMessages.MoPath | management/commands/compile_messages.py:59-61 | the `.mo` path ends with the `.po` file's stem plus `.mo` and, for a file name without `/`, starts with the location's directory |
| CompileMessages.CatalogDir | management/commands/compile_messages.py:65-66 | defined (no IndexError on `split_locale_path[-2]`) if and only if `dirpath` holds a `/`; the result starts with the output directory, and its components are those of the output directory followed by the last two of `dirpath` when the output directory ends in a name and the second-to-last piece is not empty |
| CompileMessages.CatalogDirDefined | management/commands/compile_messages.py:65-66 | `dirpath.split('/')` has a second-to-last piece if and only if `dirpath` holds a `/` |
| CompileMessages.JsonPath | management/commands/compile_messages.py:74 | defined exactly when the catalog directory is; the JSON path ends with the stem plus `.json` and, for a file name without `/`, lies in the catalog directory |
| CompileMessages.CatalogDirLayout | management/commands/compile_messages.py:65-66 | the catalog directory for `prefix/locale/sub` is `output_dir/locale/sub` |
| CompileMessages.MoPathLayout | management/commands/compile_messages.py:59-61 | the compiled catalog for `dir/name.ext` is `dir/name.mo` |
| CompileMessages.JsonPathLayout | management/commands/compile_messages.py:59-74 | the JSON catalog for `prefix/locale/sub/name.ext` is `output_dir/locale/sub/name.json` |
| CompileMessages.ProcessLocation | management/commands/compile_messages.py:58-79 | one loop iteration: a missing `.mo` file is reported first, then a one-component `dirpath`. Otherwise the step succeeds exactly when the catalog directory exists or can be made, the `.mo` file opens and parses to a catalog with a header, and the JSON file can be written. On success it writes the header-less catalog to the derived path. Past the first two checks, a catalog directory that is neither present nor creatable gives `CannotCreateDirectory(output_dir)`, naming the output directory and not the catalog directory. Otherwise the step is `convert` on the derived `.mo` and JSON paths, with its errors |
| CompileMessages.ProcessLocationLayout | management/commands/compile_messages.py:58-79 | for `prefix/locale/sub/name.ext` with every file-system step succeeding, the step converts `prefix/locale/sub/name.mo` into `output_dir/locale/sub/name.json` |
| CompileMessages.RunSteps | management/commands/compile_messages.py:58-79 | the loop produces at most one result per location, and ends without error exactly when every location was processed |
| CompileMessages.RunStepsInOrder | management/commands/compile_messages.py:58-79 | the results are those of a prefix of the locations, in order, each the step's own result. An error stops the loop at the first failing location and is that location's error |
| CompileMessages.CompileLocations | management/commands/compile_messages.py:58-79 | the conversion loop converts a prefix of the locations in list order, each as its own step would, and stops at the first failing location with its error; it stops early exactly when some location fails |
| CompileMessages.LoopCompletes | management/commands/compile_messages.py:58-79 | the loop ends without error exactly when every location's step succeeds, and then holds one conversion per location, in order |
| CompileMessages.MissingMoStopsRun | management/commands/compile_messages.py:62-63 | a location whose `.mo` file is missing ends the run there, after the earlier locations and before it or any later one is converted |
| CompileMessages.ResolveOutputDir | management/commands/compile_messages.py:39-40 | resolves exactly when `--output-dir` is truthy or `LOCALE_PATHS` is non-empty; a truthy option wins, otherwise `LOCALE_PATHS[0]` is used, and an empty `LOCALE_PATHS` is an IndexError |
| CompileMessages.EmptyOutputDirIsDefault | management/commands/compile_messages.py:40 | an empty `--output-dir` behaves exactly like no option |
| CompileMessages.Handle | management/commands/compile_messages.py:38-79 | without a truthy option or a locale path the command fails before writing anything; it ends without error if and only if the output directory resolves, exists or can be made, and every location's step succeeds (so every `.mo` file opens and parses to a catalog with a header), and then writes each location's header-less catalog, in order, from its `.mo` path to its JSON path. Once the output directory `d` resolves, a `d` that is neither present nor creatable gives `CannotCreateDirectory(d)` with nothing written; otherwise the run is the loop over the locations, which stops at the first failing step with that step's error |
| CompileMessages.HandleOneLocation | management/commands/compile_messages.py:38-79 | without `--output-dir`, a single location `prefix/locale/sub/name.ext` whose file-system steps all succeed is converted into `LOCALE_PATHS[0]/locale/sub/name.json`, and the run ends without error |

## Left out

- `Command.handle_noargs` and the `option_list` declarations are option plumbing into the module globals. The model takes the registry (`template_dirs`, `template_exts`) as a parameter.
- `handle_extensions` is Django code and is not part of this model. Registered extensions are taken as already normalised.
- The monkey-patch of `django.utils.translation.templatize` is not modelled; `MakeMessages.Templatize` is the patched function itself.
- The following are parameters of the model: `os.walk`, `os.path.abspath`, `os.path.exists`, `os.makedirs`, opening and reading files, and Django's own `templatize`. Errors raised while opening or reading a template are not modelled.
- `fnmatch.filter(names, '*' + ext)` is modelled as a suffix test. Glob metacharacters inside an extension are not interpreted, and `normcase` is the identity, as on POSIX.
- Scope.FindPaths: builds the scope with the corrected duplicate check, where the code has the check as written (make_messages.py:62). The contract proves the two give the same set whenever the walk yields `/`-free file names, as `os.walk` does. For walks that yield names holding `/`, only the corrected set is modelled.
- `Scope.FindPaths` is a set, not the ordered list `find_paths` returns. Its one caller only tests membership. The dictionary's iteration order is therefore not modelled.
- `MakeMessages.Templatize`: the order of the generated lines follows Python's set iteration order, which is not specified. The contract states the lines as some enumeration of the distinct bodies and leaves the order open.
- `Escaping.ParseLine`: the reader of a generated line accepts only the `\\` and `\"` escapes. That is all `escape` produces. It is not a full Python string-literal parser.
- `gettext.GNUTranslations` parsing of a `.mo` file is a parameter (`catalogAt`): it gives the loaded catalog, or nothing when opening or parsing the file raises (an IOError, or "Bad magic number" for a file that is not a catalog), which the model reports as `UnreadableCatalog`. Which files fail to parse is not modelled. `json.dumps` is not modelled: a conversion records the map that would be serialised.
- Plural entries: `GNUTranslations._catalog` keys a plural form by the tuple `(msgid, n)`, and `json.dumps` raises a TypeError on tuple keys, so `convert` fails for a catalog with plural messages. `Catalog` maps strings to strings, so this failure is not modelled.
- Django's own `compile_messages` (`.po` to `.mo`, compile_messages.py:57) is not modelled: its effect is taken as which `.mo` files exist, and the errors it raises (a failing `msgfmt`, for one) are not modelled.
- Django's own `handle` (compile_messages.py:49) is not modelled: how it collects and batches the locations is not modelled, and `CompileMessages.Handle` takes the locations as one given list.
- `os.makedirs` is a fixed predicate per path. A directory made for one location counts as creatable for every later one, so the directories created during a run are not tracked. Partial creation of intermediate directories is not modelled.
- The verbosity-dependent progress message on standard output is not modelled.

## Findings

| source | as written | input that shows it | evidently intended | confidence | as-written member | corrected member |
|---|---|---|---|---|---|---|
| management/commands/make_messages.py:62 | `if filename not in matches[root]` compares a bare file name with the joined paths stored in the list, so the check never finds an entry and never skips one | `template_dirs = ["t", "t"]`, `template_exts = [".html"]`, with `t` holding `a.html`: `matches["t"]` becomes `["t/a.html", "t/a.html"]` | test `os.path.join(root, filename)` so that each path is listed once; the set of paths in scope is the same either way when file names hold no `/` (`Scope.FindPaths`) | medium, not executed | Scope.AsWrittenListsTwice | Scope.CorrectedListsOnce |

=== FILE: compile_messages.dfy ===
/** The `compilemessages` extension: after Django has compiled each `.po`
    file to `.mo`, every location's catalog is converted into a JSON
    translation catalog under the output directory. The file system is an
    input: which paths exist, which directories can be created, which files
    can be written, and the message map `gettext` loads from a `.mo` file
    (or that the file does not open or parse). */
module CompileMessages {
  import opened Wrappers
  import opened Text
  import opened Paths

  /** Message id -> translation, as `GNUTranslations._catalog` holds it; the
      empty id carries the catalog's metadata header. */
  type Catalog = map<string, string>

  datatype CompileError =
    | NoLocalePaths                        // IndexError: `settings.LOCALE_PATHS[0]` of an empty list
    | CannotCreateDirectory(path: string)  // CommandError "Could not create output directory"
    | MissingMoFile(file: string, dirpath: string)  // CommandError "Could not find .mo file"
    | TooFewComponents(dirpath: string)    // IndexError: `split_locale_path[-2]`
    | MissingHeader                        // KeyError: `del catalog['']`
    | UnreadableCatalog(path: string)      // IOError: `open(inputfile)` or "Bad magic number" from `GNUTranslations`
    | CannotWrite(path: string)            // IOError: `open(outputfile, 'w')`

  /** One `(dirpath, f)` pair of the locations list: a locale directory and
      the name of a `.po` file in it. */
  datatype Location = Location(dirpath: string, file: string)

  /** What the model takes from the file system. A directory made for one
      location counts as creatable for every later one, so the directories
      created during a run need not be tracked. */
  datatype FileSystem = FileSystem(
    present: string -> bool,        // os.path.exists
    creatable: string -> bool,      // os.makedirs succeeds
    writable: string -> bool,       // open(path, 'w') succeeds
    catalogAt: string -> Option<Catalog>)  // gettext.GNUTranslations(open(path))._catalog; None when it raises

  /** One JSON catalog written: where from, where to, and the map serialised. */
  datatype Conversion = Conversion(moPath: string, jsonPath: string, catalog: Catalog)

  /** The outcome of a run: the conversions done, in order, and the error
      that stopped the run, if any. */
  datatype Run = Run(written: seq<Conversion>, failure: Option<CompileError>)

  // ---------------------------------------------------------------------
  // convert

  /** The catalog step of `convert`: drop the header entry, keep every other
      entry as it is; without a header entry `del` raises and nothing is
      produced. */
  function Convert(catalog: Catalog): (r: Result<Catalog, CompileError>)
    ensures r.Success? <==> "" in catalog
    ensures r.Failure? ==> r.error == MissingHeader
    ensures r.Success? ==> r.value.Keys == catalog.Keys - {""}
    ensures r.Success? ==> forall k :: k in r.value ==> r.value[k] == catalog[k]
  {
    if "" in catalog then Success(catalog - {""}) else Failure(MissingHeader)
  }

  /** Putting the header back into the converted map restores the catalog. */
  lemma ConvertThenRestoreHeader(catalog: Catalog)
    requires "" in catalog
    ensures Convert(catalog).Success?
    ensures Convert(catalog).value["" := catalog[""]] == catalog
  {
    var out := Convert(catalog).value;
    assert out["" := catalog[""]].Keys == catalog.Keys;
  }

  /** Converting a message map with any header added gives the message map
      back: the output never holds the empty key and loses no message. */
  lemma AddHeaderThenConvert(messages: Catalog, header: string)
    requires "" !in messages
    ensures Convert(messages["" := header]) == Success(messages)
  {
    var out := Convert(messages["" := header]).value;
    assert out.Keys == messages.Keys;
    assert forall k :: k in out ==> out[k] == messages[k];
    assert out == messages;
  }

  /** The catalog `{"": "Content-Type: ...", "Save": "Enregistrer"}` converts
      to `{"Save": "Enregistrer"}`. */
  lemma ConvertExample()
    ensures Convert(map["" := "Content-Type: text/plain; charset=UTF-8", "Save" := "Enregistrer"])
         == Success(map["Save" := "Enregistrer"])
  {
    AddHeaderThenConvert(map["Save" := "Enregistrer"], "Content-Type: text/plain; charset=UTF-8");
    assert map["Save" := "Enregistrer"]["" := "Content-Type: text/plain; charset=UTF-8"]
        == map["" := "Content-Type: text/plain; charset=UTF-8", "Save" := "Enregistrer"];
  }

  // ---------------------------------------------------------------------
  // Path derivation

  /** `os.path.join(dirpath, fname + '.mo')` with `fname = splitext(f)[0]`:
      the compiled catalog named after the `.po` file's stem, in the
      location's own directory. */
  function MoPath(loc: Location): (r: string)
    ensures EndsWith(r, Stem(loc.file) + ".mo")
    ensures '/' !in loc.file ==> loc.dirpath <= r
  {
    StemIsRelative(loc.file);
    Join(loc.dirpath, Stem(loc.file) + ".mo")
  }

  /** The stem of a file name holding no `/` cannot make a path absolute. */
  lemma StemIsRelative(f: string)
    ensures '/' !in f ==> '/' !in Stem(f)
  {
    var stem := Stem(f);
    assert stem == f[..|stem|];
    if '/' !in f {
      forall k | 0 <= k < |stem|
        ensures stem[k] != '/'
      {
        assert stem[k] == f[k];
      }
    }
  }

  /** `os.path.join(output_dir, parts[-2], parts[-1])` with
      `parts = dirpath.split('/')`: defined exactly when `dirpath` holds a
      `/` (otherwise indexing `parts[-2]` raises); the result lies under the
      output directory, and when the output directory ends in a name and
      `parts[-2]` is not empty, its components are those of the output
      directory followed by the last two of `dirpath`. */
  function CatalogDir(outputDir: string, dirpath: string): (r: Option<string>)
    ensures r.Some? <==> '/' in dirpath
    ensures r.Some? ==> outputDir <= r.value
    ensures r.Some? && outputDir != "" && outputDir[|outputDir| - 1] != '/' && SplitOn(dirpath, '/')[|SplitOn(dirpath, '/')| - 2] != "" ==>
              SplitOn(r.value, '/') == SplitOn(outputDir, '/') + SplitOn(dirpath, '/')[|SplitOn(dirpath, '/')| - 2..]
  {
    var parts := SplitOn(dirpath, '/');
    CatalogDirDefined(dirpath);
    if |parts| < 2 then None
    else
      LastTwoJoined(outputDir, parts);
      Some(Join(Join(outputDir, parts[|parts| - 2]), parts[|parts| - 1]))
  }

  /** The last two of some `/`-free pieces joined onto the output directory. */
  lemma LastTwoJoined(outputDir: string, parts: seq<string>)
    requires |parts| >= 2 && forall i :: 0 <= i < |parts| ==> '/' !in parts[i]
    ensures var d := Join(Join(outputDir, parts[|parts| - 2]), parts[|parts| - 1]);
            && outputDir <= d
            && (outputDir != "" && outputDir[|outputDir| - 1] != '/' && parts[|parts| - 2] != "" ==>
                  SplitOn(d, '/') == SplitOn(outputDir, '/') + parts[|parts| - 2..])
  {
    var locale, sub := parts[|parts| - 2], parts[|parts| - 1];
    assert '/' !in locale && '/' !in sub;
    JoinTwo(outputDir, locale, sub);
    assert parts[|parts| - 2..] == [locale, sub];
  }

  /** `dirpath.split('/')` has a second-to-last piece exactly when `dirpath`
      holds a `/`. */
  lemma CatalogDirDefined(dirpath: string)
    ensures |SplitOn(dirpath, '/')| >= 2 <==> '/' in dirpath
  {
    var parts := SplitOn(dirpath, '/');
    if |parts| == 1 {
      assert dirpath == parts[0];
    } else {
      assert JoinWith(parts, '/') == parts[0] + ['/'] + JoinWith(parts[1..], '/');
      assert dirpath[|parts[0]|] == '/';
    }
  }

  /** Joining two names onto the output directory keeps it as a prefix,
      and adds them as two components when it ends in a name and the first
      is not empty. */
  lemma JoinTwo(outputDir: string, locale: string, sub: string)
    requires '/' !in locale && '/' !in sub
    ensures outputDir <= Join(Join(outputDir, locale), sub)
    ensures outputDir != "" && outputDir[|outputDir| - 1] != '/' && locale != "" ==>
              SplitOn(Join(Join(outputDir, locale), sub), '/') == SplitOn(outputDir, '/') + [locale, sub]
  {
    var first := Join(outputDir, locale);
    assert locale == "" || locale[0] in locale;
    assert sub == "" || sub[0] in sub;
    assert outputDir <= first <= Join(first, sub);
    if outputDir != "" && outputDir[|outputDir| - 1] != '/' && locale != "" {
      JoinTwoComponents(outputDir, locale, sub);
    }
  }

  lemma JoinTwoComponents(outputDir: string, locale: string, sub: string)
    requires '/' !in locale && '/' !in sub
    requires outputDir != "" && outputDir[|outputDir| - 1] != '/' && locale != ""
    ensures SplitOn(Join(Join(outputDir, locale), sub), '/') == SplitOn(outputDir, '/') + [locale, sub]
  {
    var first := Join(outputDir, locale);
    var head := SplitOn(outputDir, '/');
    assert locale[0] in locale;
    SplitOfJoin(outputDir, locale);
    SingleComponent(locale);
    NameLast(outputDir, locale);
    assert sub == "" || sub[0] in sub;
    SplitOfJoin(first, sub);
    SingleComponent(sub);
    AppendTwo(head, locale, sub);
  }

  /** A path joined with a relative name ends where the name ends. */
  lemma NameLast(a: string, name: string)
    requires name != "" && '/' !in name
    ensures Join(a, name) != "" && Join(a, name)[|Join(a, name)| - 1] != '/'
  {
    assert name[0] in name;
    var r := Join(a, name);
    assert r[|r| - 1] == name[|name| - 1];
    assert name[|name| - 1] in name;
  }

  lemma AppendTwo<T>(head: seq<T>, x: T, y: T)
    ensures head + [x] + [y] == head + [x, y]
  {
  }

  /** A name without `/` is one component. */
  lemma SingleComponent(name: string)
    requires '/' !in name
    ensures SplitOn(name, '/') == [name]
  {
    SplitUnique(name, '/', [name]);
  }

  /** `os.path.join(catalog_base_path, fname + '.json')`: defined exactly
      when the catalog directory is; the JSON catalog is named after the
      `.po` file's stem and lies in that directory. */
  function JsonPath(outputDir: string, loc: Location): (r: Option<string>)
    ensures r.Some? <==> '/' in loc.dirpath
    ensures r.Some? ==> EndsWith(r.value, Stem(loc.file) + ".json")
    ensures r.Some? && '/' !in loc.file ==> CatalogDir(outputDir, loc.dirpath).value <= r.value
  {
    StemIsRelative(loc.file);
    match CatalogDir(outputDir, loc.dirpath)
    case None => None
    case Some(base) => Some(Join(base, Stem(loc.file) + ".json"))
  }

  /** The file name's stem when the name is `<name>.<ext>`. */
  lemma StemOfFileName(name: string, ext: string)
    requires '/' !in name && '/' !in ext && '.' !in ext
    requires exists k :: 0 <= k < |name| && name[k] != '.'
    ensures Stem(name + "." + ext) == name
  {
    SplitExtOfFileName(name, ext);
  }

  /** The locale directory `<output_dir>/<locale>/<sub>` that the JSON
      catalog of `<prefix>/<locale>/<sub>` goes to. */
  lemma CatalogDirLayout(outputDir: string, prefix: string, locale: string, sub: string)
    requires outputDir != "" && outputDir[|outputDir| - 1] != '/'
    requires locale != "" && sub != "" && '/' !in locale && '/' !in sub
    ensures CatalogDir(outputDir, prefix + "/" + locale + "/" + sub) == Some(outputDir + "/" + locale + "/" + sub)
  {
    assert prefix + "/" + locale + "/" + sub == prefix + ['/'] + locale + ['/'] + sub;
    SplitLastTwo(prefix, locale, sub, '/');
    assert locale[0] in locale && sub[0] in sub && locale[|locale| - 1] in locale;
    JoinAtSeam(outputDir, locale);
    var first := outputDir + "/" + locale;
    assert first[|first| - 1] == locale[|locale| - 1];
    JoinAtSeam(first, sub);
  }

  /** The compiled catalog read for `<dirpath>/<name>.<ext>` is
      `<dirpath>/<name>.mo`. */
  lemma MoPathLayout(dirpath: string, name: string, ext: string)
    requires dirpath != "" && dirpath[|dirpath| - 1] != '/'
    requires '/' !in name && '/' !in ext && '.' !in ext
    requires exists k :: 0 <= k < |name| && name[k] != '.'
    ensures MoPath(Location(dirpath, name + "." + ext)) == dirpath + "/" + name + ".mo"
  {
    StemOfFileName(name, ext);
    var k :| 0 <= k < |name| && name[k] != '.';
    MoPathFrom(Location(dirpath, name + "." + ext), name);
    MoFileInDirectory(dirpath, name);
  }

  /** The `.mo` path in terms of the stem. */
  lemma MoPathFrom(loc: Location, stem: string)
    requires Stem(loc.file) == stem
    ensures MoPath(loc) == Join(loc.dirpath, stem + ".mo")
  {
  }

  lemma MoFileInDirectory(dirpath: string, name: string)
    requires dirpath != "" && dirpath[|dirpath| - 1] != '/'
    requires name != "" && '/' !in name
    ensures Join(dirpath, name + ".mo") == dirpath + "/" + name + ".mo"
  {
    assert name[0] in name;
    assert (name + ".mo")[0] == name[0];
    JoinAtSeam(dirpath, name + ".mo");
  }

  /** The JSON path in terms of the catalog directory and the stem. */
  lemma JsonPathFrom(outputDir: string, loc: Location, base: string, stem: string)
    requires CatalogDir(outputDir, loc.dirpath) == Some(base) && Stem(loc.file) == stem
    ensures JsonPath(outputDir, loc) == Some(Join(base, stem + ".json"))
  {
  }

  /** The JSON catalog of `<prefix>/<locale>/<sub>/<name>.<ext>` is written
      to `<output_dir>/<locale>/<sub>/<name>.json`. */
  lemma JsonPathLayout(outputDir: string, prefix: string, locale: string, sub: string, name: string, ext: string)
    requires outputDir != "" && outputDir[|outputDir| - 1] != '/'
    requires locale != "" && sub != "" && '/' !in locale && '/' !in sub
    requires '/' !in name && '/' !in ext && '.' !in ext
    requires exists k :: 0 <= k < |name| && name[k] != '.'
    ensures JsonPath(outputDir, Location(prefix + "/" + locale + "/" + sub, name + "." + ext))
         == Some(outputDir + "/" + locale + "/" + sub + "/" + name + ".json")
  {
    var k :| 0 <= k < |name| && name[k] != '.';
    var base := outputDir + "/" + locale + "/" + sub;
    CatalogDirLayout(outputDir, prefix, locale, sub);
    StemOfFileName(name, ext);
    EndsWithConcat(outputDir + "/" + locale + "/", sub);
    JsonInDirectory(outputDir, Location(prefix + "/" + locale + "/" + sub, name + "." + ext), base, sub, name);
    JsonNameAssoc(base, name);
  }

  /** The JSON path of a location whose catalog directory and stem are
      known. */
  lemma JsonInDirectory(outputDir: string, loc: Location, base: string, sub: string, name: string)
    requires CatalogDir(outputDir, loc.dirpath) == Some(base) && Stem(loc.file) == name
    requires sub != "" && '/' !in sub && EndsWith(base, sub)
    requires name != "" && '/' !in name
    ensures JsonPath(outputDir, loc) == Some(base + "/" + (name + ".json"))
  {
    JsonPathFrom(outputDir, loc, base, name);
    JsonFileInDirectory(base, sub, name);
  }

  lemma EndsWithConcat(x: string, y: string)
    ensures EndsWith(x + y, y)
  {
    assert (x + y)[|x + y| - |y|..] == y;
  }

  lemma JsonNameAssoc(base: string, name: string)
    ensures base + "/" + (name + ".json") == base + "/" + name + ".json"
  {
  }

  lemma JsonFileInDirectory(base: string, sub: string, name: string)
    requires sub != "" && '/' !in sub && EndsWith(base, sub)
    requires name != "" && '/' !in name
    ensures Join(base, name + ".json") == base + "/" + (name + ".json")
  {
    assert name[0] in name;
    assert sub[|sub| - 1] in sub;
    assert base[|base| - 1] == sub[|sub| - 1];
    assert (name + ".json")[0] == name[0];
    JoinAtSeam(base, name + ".json");
  }

  // ---------------------------------------------------------------------
  // The per-location step and the loop

  /** The `.mo` file at `path` opens and parses, and its catalog holds the
      header entry that `convert` deletes. */
  predicate Loads(fs: FileSystem, path: string) {
    fs.catalogAt(path).Some? && "" in fs.catalogAt(path).value
  }

  /** `convert(mo_path, catalog_path)`: load, drop the header, write. A file
      that does not open or parse stops it before anything is deleted; a
      catalog without the header entry stops it at `del`, before the output
      file is opened; an output file that cannot be opened stops it last. */
  function ConvertFile(fs: FileSystem, moPath: string, jsonPath: string): (r: Result<Conversion, CompileError>)
    ensures r.Success? <==> Loads(fs, moPath) && fs.writable(jsonPath)
    ensures fs.catalogAt(moPath).None? ==> r == Failure(UnreadableCatalog(moPath))
    ensures fs.catalogAt(moPath).Some? && "" !in fs.catalogAt(moPath).value ==> r == Failure(MissingHeader)
    ensures Loads(fs, moPath) && !fs.writable(jsonPath) ==> r == Failure(CannotWrite(jsonPath))
    ensures r.Success? ==> r.value == Conversion(moPath, jsonPath, fs.catalogAt(moPath).value - {""})
  {
    match fs.catalogAt(moPath)
    case None => Failure(UnreadableCatalog(moPath))
    case Some(loaded) =>
      var catalog :- Convert(loaded);
      if fs.writable(jsonPath) then Success(Conversion(moPath, jsonPath, catalog))
      else Failure(CannotWrite(jsonPath))
  }

  /** One iteration of the loop in `compile_messages`: the command checks
      the `.mo` file, the locale path, the output directory, then does the
      conversion itself, and the first check that fails gives the error. A
      missing `.mo` file is reported first, then a single-component locale
      path; otherwise the step succeeds exactly when the catalog directory
      exists or can be made, the `.mo` file loads with a header and the JSON
      file can be written, and it then writes the header-less catalog to the
      derived JSON path. A catalog directory that can be neither found nor
      made is reported under the output directory's name. */
  function ProcessLocation(fs: FileSystem, outputDir: string, loc: Location): (r: Result<Conversion, CompileError>)
    ensures !fs.present(MoPath(loc)) ==> r == Failure(MissingMoFile(loc.file, loc.dirpath))
    ensures fs.present(MoPath(loc)) && '/' !in loc.dirpath ==> r == Failure(TooFewComponents(loc.dirpath))
    ensures fs.present(MoPath(loc)) && CatalogDir(outputDir, loc.dirpath).Some? ==>
              var base := CatalogDir(outputDir, loc.dirpath).value;
              if !fs.present(base) && !fs.creatable(base) then r == Failure(CannotCreateDirectory(outputDir))
              else r == ConvertFile(fs, MoPath(loc), JsonPath(outputDir, loc).value)
    ensures r.Success? <==>
              && fs.present(MoPath(loc))
              && CatalogDir(outputDir, loc.dirpath).Some?
              && (fs.present(CatalogDir(outputDir, loc.dirpath).value) || fs.creatable(CatalogDir(outputDir, loc.dirpath).value))
              && Loads(fs, MoPath(loc))
              && fs.writable(JsonPath(outputDir, loc).value)
    ensures r.Success? ==>
              && r.value.moPath == MoPath(loc)
              && Some(r.value.jsonPath) == JsonPath(outputDir, loc)
              && Loads(fs, MoPath(loc))
              && r.value.catalog == fs.catalogAt(MoPath(loc)).value - {""}
  {
    var moPath := MoPath(loc);
    if !fs.present(moPath) then Failure(MissingMoFile(loc.file, loc.dirpath))
    else
      match CatalogDir(outputDir, loc.dirpath)
      case None => Failure(TooFewComponents(loc.dirpath))
      case Some(base) =>
        // the command reports `output_dir`, not the directory it failed to make
        if !fs.present(base) && !fs.creatable(base) then Failure(CannotCreateDirectory(outputDir))
        else ConvertFile(fs, moPath, Join(base, Stem(loc.file) + ".json"))
  }

  /** Running a step over the locations in list order, the first error
      ending the run with the results gathered before it. */
  function RunSteps(step: Location -> Result<Conversion, CompileError>, locations: seq<Location>): (r: Run)
    ensures |r.written| <= |locations|
    ensures r.failure.None? <==> |r.written| == |locations|
    decreases |locations|
  {
    if locations == [] then Run([], None)
    else
      match step(locations[0])
      case Failure(e) => Run([], Some(e))
      case Success(c) =>
        var rest := RunSteps(step, locations[1..]);
        Run([c] + rest.written, rest.failure)
  }

  /** The run gathers the results of a prefix of the locations, each the
      step's own result, and when it stops early it stops at the first
      location whose step fails, with that step's error. */
  lemma {:induction false} RunStepsInOrder(step: Location -> Result<Conversion, CompileError>, locations: seq<Location>)
    ensures var r := RunSteps(step, locations);
            && (forall i :: 0 <= i < |r.written| ==> step(locations[i]) == Success(r.written[i]))
            && (r.failure.Some? ==> step(locations[|r.written|]) == Failure(r.failure.value))
    decreases |locations|
  {
    if locations != [] && step(locations[0]).Success? {
      var tail := locations[1..];
      RunStepsInOrder(step, tail);
      var rest := RunSteps(step, tail);
      var r := RunSteps(step, locations);
      assert r.written == [step(locations[0]).value] + rest.written;
      forall i | 1 <= i < |r.written|
        ensures step(locations[i]) == Success(r.written[i])
      {
        assert locations[i] == tail[i - 1] && r.written[i] == rest.written[i - 1];
      }
      if r.failure.Some? {
        assert locations[|r.written|] == tail[|rest.written|];
      }
    }
  }

  /** The loop of `compile_messages`: every location through
      `ProcessLocation`, in list order. It converts a prefix of the
      locations, each as its own step would, and when it stops early it
      stops at the first location whose step fails, with that step's error;
      it stops early exactly when some location fails. */
  function CompileLocations(fs: FileSystem, outputDir: string, locations: seq<Location>): (r: Run)
    ensures |r.written| <= |locations|
    ensures r.failure.None? <==> |r.written| == |locations|
    ensures forall i :: 0 <= i < |r.written| ==> ProcessLocation(fs, outputDir, locations[i]) == Success(r.written[i])
    ensures r.failure.Some? ==> ProcessLocation(fs, outputDir, locations[|r.written|]) == Failure(r.failure.value)
  {
    RunStepsInOrder(loc => ProcessLocation(fs, outputDir, loc), locations);
    RunSteps(loc => ProcessLocation(fs, outputDir, loc), locations)
  }

  /** `output_dir if output_dir else settings.LOCALE_PATHS[0]`: resolves
      exactly when the option is truthy or a locale path is configured; a
      truthy option wins, otherwise the first locale path is taken, and an
      empty list raises. */
  function ResolveOutputDir(option: Option<string>, localePaths: seq<string>): (r: Result<string, CompileError>)
    ensures r.Success? <==> Truthy(option) || |localePaths| > 0
    ensures r.Failure? ==> r.error == NoLocalePaths
    ensures Truthy(option) ==> r.value == option.value
    ensures !Truthy(option) && r.Success? ==> r.value == localePaths[0]
  {
    if option.Some? && option.value != "" then Success(option.value)
    else if |localePaths| > 0 then Success(localePaths[0])
    else Failure(NoLocalePaths)
  }

  /** An empty `--output-dir` is no option at all: the locale path is used. */
  lemma EmptyOutputDirIsDefault(localePaths: seq<string>)
    ensures ResolveOutputDir(Some(""), localePaths) == ResolveOutputDir(None, localePaths)
  {
  }

  /** `handle` followed by the conversion loop: resolve the output
      directory, make sure it exists, then process the locations. Without a
      truthy option or a locale path nothing is written. The command ends
      without error exactly when the output directory resolves and exists
      or can be made and every location's step succeeds; it then writes,
      for each location in order, the header-less catalog of its `.mo` file
      to its JSON path. An output directory that can be neither found nor
      made ends the command before any location; otherwise the run is the
      loop's. */
  function Handle(fs: FileSystem, option: Option<string>, localePaths: seq<string>, locations: seq<Location>): (r: Run)
    ensures !Truthy(option) && |localePaths| == 0 ==> r == Run([], Some(NoLocalePaths))
    ensures Truthy(option) || |localePaths| > 0 ==>
              var d := ResolveOutputDir(option, localePaths).value;
              if !fs.present(d) && !fs.creatable(d) then r == Run([], Some(CannotCreateDirectory(d)))
              else r == CompileLocations(fs, d, locations)
    ensures r.failure.None? <==>
              && (Truthy(option) || |localePaths| > 0)
              && (fs.present(ResolveOutputDir(option, localePaths).value) || fs.creatable(ResolveOutputDir(option, localePaths).value))
              && forall i :: 0 <= i < |locations| ==> ProcessLocation(fs, ResolveOutputDir(option, localePaths).value, locations[i]).Success?
    ensures r.failure.None? ==>
              && |r.written| == |locations|
              && forall i :: 0 <= i < |locations| ==>
                   && r.written[i].moPath == MoPath(locations[i])
                   && JsonPath(ResolveOutputDir(option, localePaths).value, locations[i]) == Some(r.written[i].jsonPath)
                   && Loads(fs, MoPath(locations[i]))
                   && r.written[i].catalog == fs.catalogAt(MoPath(locations[i])).value - {""}
  {
    match ResolveOutputDir(option, localePaths)
    case Failure(e) => Run([], Some(e))
    case Success(d) =>
      if !fs.present(d) && !fs.creatable(d) then Run([], Some(CannotCreateDirectory(d)))
      else
        LoopCompletes(fs, d, locations);
        CompileLocations(fs, d, locations)
  }

  /** The loop ends without error exactly when every location's step
      succeeds, and then holds one conversion per location, in order. */
  lemma LoopCompletes(fs: FileSystem, outputDir: string, locations: seq<Location>)
    ensures var run := CompileLocations(fs, outputDir, locations);
            run.failure.None? <==> forall i :: 0 <= i < |locations| ==> ProcessLocation(fs, outputDir, locations[i]).Success?
    ensures var run := CompileLocations(fs, outputDir, locations);
            run.failure.None? ==>
              && |run.written| == |locations|
              && forall i :: 0 <= i < |locations| ==>
                   && run.written[i].moPath == MoPath(locations[i])
                   && JsonPath(outputDir, locations[i]) == Some(run.written[i].jsonPath)
                   && Loads(fs, MoPath(locations[i]))
                   && run.written[i].catalog == fs.catalogAt(MoPath(locations[i])).value - {""}
  {
    var run := CompileLocations(fs, outputDir, locations);
    if run.failure.None? {
      forall i | 0 <= i < |locations|
        ensures ProcessLocation(fs, outputDir, locations[i]) == Success(run.written[i])
      {
      }
    }
  }

  /** A location whose `.mo` file is missing stops the run there: the
      locations before it are converted, it and those after it are not. */
  lemma MissingMoStopsRun(fs: FileSystem, outputDir: string, locations: seq<Location>, k: nat)
    requires k < |locations|
    requires forall i :: 0 <= i < k ==> ProcessLocation(fs, outputDir, locations[i]).Success?
    requires !fs.present(MoPath(locations[k]))
    ensures var r := CompileLocations(fs, outputDir, locations);
            |r.written| == k && r.failure == Some(MissingMoFile(locations[k].file, locations[k].dirpath))
  {
    var r := CompileLocations(fs, outputDir, locations);
  }

  /** A run over one location whose step succeeds gathers that one result
      and ends without error. */
  lemma CompileOneLocation(fs: FileSystem, outputDir: string, loc: Location, c: Conversion)
    requires ProcessLocation(fs, outputDir, loc) == Success(c)
    ensures CompileLocations(fs, outputDir, [loc]) == Run([c], None)
  {
    assert [loc][1..] == [];
  }

  /** The step for `<prefix>/<locale>/<sub>/<name>.<ext>` when every
      file-system step succeeds. */
  lemma ProcessLocationLayout(fs: FileSystem, outDir: string, prefix: string, locale: string, sub: string, name: string, ext: string)
    requires outDir != "" && outDir[|outDir| - 1] != '/'
    requires locale != "" && sub != "" && '/' !in locale && '/' !in sub
    requires '/' !in name && '/' !in ext && '.' !in ext
    requires exists k :: 0 <= k < |name| && name[k] != '.'
    requires var dirpath := prefix + "/" + locale + "/" + sub;
             && fs.present(dirpath + "/" + name + ".mo")
             && fs.present(outDir + "/" + locale + "/" + sub)
             && Loads(fs, dirpath + "/" + name + ".mo")
             && fs.writable(outDir + "/" + locale + "/" + sub + "/" + name + ".json")
    ensures var dirpath := prefix + "/" + locale + "/" + sub;
            var mo := dirpath + "/" + name + ".mo";
            ProcessLocation(fs, outDir, Location(dirpath, name + "." + ext))
              == Success(Conversion(mo, outDir + "/" + locale + "/" + sub + "/" + name + ".json", fs.catalogAt(mo).value - {""}))
  {
    var dirpath := prefix + "/" + locale + "/" + sub;
    var loc := Location(dirpath, name + "." + ext);
    assert dirpath[|dirpath| - 1] == sub[|sub| - 1] && sub[|sub| - 1] in sub;
    MoPathLayout(dirpath, name, ext);
    JsonPathLayout(outDir, prefix, locale, sub, name, ext);
    CatalogDirLayout(outDir, prefix, locale, sub);
  }

  /** With no `--output-dir`, the single location
      `<prefix>/<locale>/<sub>/<name>.<ext>` is converted into
      `<LOCALE_PATHS[0]>/<locale>/<sub>/<name>.json` when every file-system
      step succeeds, and the run ends without error. */
  lemma HandleOneLocation(fs: FileSystem, localePaths: seq<string>, prefix: string, locale: string, sub: string, name: string, ext: string)
    requires |localePaths| > 0 && localePaths[0] != "" && localePaths[0][|localePaths[0]| - 1] != '/'
    requires locale != "" && sub != "" && '/' !in locale && '/' !in sub
    requires '/' !in name && '/' !in ext && '.' !in ext
    requires exists k :: 0 <= k < |name| && name[k] != '.'
    requires var dirpath := prefix + "/" + locale + "/" + sub;
             var outDir := localePaths[0];
             && fs.present(outDir)
             && fs.present(dirpath + "/" + name + ".mo")
             && fs.present(outDir + "/" + locale + "/" + sub)
             && Loads(fs, dirpath + "/" + name + ".mo")
             && fs.writable(outDir + "/" + locale + "/" + sub + "/" + name + ".json")
    ensures var dirpath := prefix + "/" + locale + "/" + sub;
            var outDir := localePaths[0];
            var mo := dirpath + "/" + name + ".mo";
            Handle(fs, None, localePaths, [Location(dirpath, name + "." + ext)])
              == Run([Conversion(mo, outDir + "/" + locale + "/" + sub + "/" + name + ".json", fs.catalogAt(mo).value - {""})], None)
  {
    var dirpath := prefix + "/" + locale + "/" + sub;
    var outDir := localePaths[0];
    var mo := dirpath + "/" + name + ".mo";
    var loc := Location(dirpath, name + "." + ext);
    ProcessLocationLayout(fs, outDir, prefix, locale, sub, name, ext);
    CompileOneLocation(fs, outDir, loc, Conversion(mo, outDir + "/" + locale + "/" + sub + "/" + name + ".json", fs.catalogAt(mo).value - {""}));
  }
}

=== FILE: escaping.dfy ===
/** The inner `escape` of `templatize` and the `_("""…""")` line it feeds,
    with their inverses: `Unescape` undoes `Escape`, and `ParseLine` reads a
    line back the way a Python-syntax message extractor reads a
    triple-quoted string literal. */
module Escaping {
  import opened Wrappers

  /** `s.replace(c, rep)` for a one-character pattern. */
  function ReplaceChar(s: string, c: char, rep: string): string {
    if |s| == 0 then ""
    else (if s[0] == c then rep else [s[0]]) + ReplaceChar(s[1..], c, rep)
  }

  /** `escape(s)`: backslashes are doubled first, then every double quote
      gets a backslash in front of it. The two passes act on each character
      independently (the backslashes added for quotes are not doubled
      again), unescaping gives `s` back, and every quote of the result is
      escaped while the result ends on an even run of backslashes, so
      nothing in it can close the surrounding literal. */
  function Escape(s: string): (r: string)
    ensures r == EscapeEach(s)
    ensures Unescape(r) == s
    ensures QuotesEscaped(r) && BackslashRun(r, |r|) % 2 == 0
  {
    PassesAreCharwise(s);
    UnescapeEscapeEach(s);
    EscapeEachQuotes(s);
    ReplaceChar(ReplaceChar(s, '\\', "\\\\"), '"', "\\\"")
  }

  /** What `Escape` turns one character into. */
  function EscapeChar(c: char): string {
    if c == '\\' then "\\\\"
    else if c == '"' then "\\\""
    else [c]
  }

  /** `Escape`, one character at a time. */
  function EscapeEach(s: string): string {
    if |s| == 0 then "" else EscapeChar(s[0]) + EscapeEach(s[1..])
  }

  lemma {:induction false} ReplaceCharAppend(a: string, b: string, c: char, rep: string)
    ensures ReplaceChar(a + b, c, rep) == ReplaceChar(a, c, rep) + ReplaceChar(b, c, rep)
    decreases |a|
  {
    if |a| > 0 {
      assert (a + b)[1..] == a[1..] + b;
      ReplaceCharAppend(a[1..], b, c, rep);
    } else {
      assert a + b == b;
    }
  }

  lemma {:induction false} EscapeEachAppend(a: string, b: string)
    ensures EscapeEach(a + b) == EscapeEach(a) + EscapeEach(b)
    decreases |a|
  {
    if |a| > 0 {
      assert (a + b)[1..] == a[1..] + b;
      EscapeEachAppend(a[1..], b);
    } else {
      assert a + b == b;
    }
  }

  /** The two `replace` passes act on each character independently: doing
      the backslashes first means the backslashes added for quotes are not
      doubled again. */
  lemma {:induction false} PassesAreCharwise(s: string)
    ensures ReplaceChar(ReplaceChar(s, '\\', "\\\\"), '"', "\\\"") == EscapeEach(s)
    decreases |s|
  {
    if |s| > 0 {
      var head, tail := [s[0]], s[1..];
      assert s == head + tail;
      ReplaceCharAppend(head, tail, '\\', "\\\\");
      var once := ReplaceChar(s, '\\', "\\\\");
      ReplaceCharAppend(ReplaceChar(head, '\\', "\\\\"), ReplaceChar(tail, '\\', "\\\\"), '"', "\\\"");
      assert ReplaceChar(tail, '\\', "\\\\")[..0] == "";
      assert ReplaceChar(ReplaceChar(head, '\\', "\\\\"), '"', "\\\"") == EscapeChar(s[0]) by {
        assert head[1..] == "";
        if s[0] == '\\' {
          assert ReplaceChar(head, '\\', "\\\\") == "\\\\";
          assert "\\\\"[1..][1..] == "";
        } else {
          assert ReplaceChar(head, '\\', "\\\\") == head;
        }
      }
      PassesAreCharwise(tail);
    }
  }

  /** The inverse rule: a backslash and the character after it stand for that
      character. */
  function Unescape(r: string): string {
    if |r| == 0 then ""
    else if r[0] == '\\' && |r| >= 2 then [r[1]] + Unescape(r[2..])
    else [r[0]] + Unescape(r[1..])
  }

  lemma {:induction false} UnescapeEscapeEach(s: string)
    ensures Unescape(EscapeEach(s)) == s
    decreases |s|
  {
    if |s| > 0 {
      var r := EscapeEach(s);
      assert r == EscapeChar(s[0]) + EscapeEach(s[1..]);
      if s[0] == '\\' || s[0] == '"' {
        assert r[2..] == EscapeEach(s[1..]);
      } else {
        assert r[1..] == EscapeEach(s[1..]);
      }
      UnescapeEscapeEach(s[1..]);
    }
  }

  // ---------------------------------------------------------------------
  // Every quote of an escaped text is itself escaped

  /** The number of backslashes immediately before index `i`. */
  function BackslashRun(r: string, i: nat): nat
    requires i <= |r|
  {
    if i == 0 || r[i - 1] != '\\' then 0 else 1 + BackslashRun(r, i - 1)
  }

  /** Every double quote of `r` follows an odd run of backslashes, so a
      string-literal reader takes each of them as an escaped quote. */
  ghost predicate QuotesEscaped(r: string) {
    forall i :: 0 <= i < |r| && r[i] == '"' ==> BackslashRun(r, i) % 2 == 1
  }

  lemma {:induction false} BackslashRunPrefix(a: string, b: string, i: nat)
    requires i <= |a|
    ensures BackslashRun(a + b, i) == BackslashRun(a, i)
    decreases i
  {
    if i > 0 && a[i - 1] == '\\' {
      BackslashRunPrefix(a, b, i - 1);
    }
  }

  /** Escaped text marks every quote and ends on an even run of backslashes,
      so whatever quote follows it is not swallowed by a dangling escape. */
  lemma {:induction false} EscapeEachQuotes(s: string)
    ensures QuotesEscaped(EscapeEach(s))
    ensures BackslashRun(EscapeEach(s), |EscapeEach(s)|) % 2 == 0
    decreases |s|
  {
    if |s| > 0 {
      var init, last := s[..|s| - 1], s[|s| - 1];
      assert s == init + [last];
      EscapeEachAppend(init, [last]);
      assert EscapeEach([last]) == EscapeChar(last);
      EscapeEachQuotes(init);
      var a := EscapeEach(init);
      assert EscapeEach(s) == a + EscapeChar(last);
      QuotesEscapedAppend(a, last);
      EvenRunAppend(a, last);
    }
  }

  /** Escaping one more character keeps every quote escaped. */
  lemma QuotesEscapedAppend(a: string, last: char)
    requires QuotesEscaped(a) && BackslashRun(a, |a|) % 2 == 0
    ensures QuotesEscaped(a + EscapeChar(last))
  {
    var b := EscapeChar(last);
    var r := a + b;
    forall i | 0 <= i < |r| && r[i] == '"'
      ensures BackslashRun(r, i) % 2 == 1
    {
      if i < |a| {
        BackslashRunPrefix(a, b, i);
      } else {
        assert last == '"' && i == |a| + 1;
        BackslashRunPrefix(a, b, |a|);
      }
    }
  }

  /** Escaping one more character keeps the final run of backslashes even. */
  lemma EvenRunAppend(a: string, last: char)
    requires BackslashRun(a, |a|) % 2 == 0
    ensures BackslashRun(a + EscapeChar(last), |a + EscapeChar(last)|) % 2 == 0
  {
    var b := EscapeChar(last);
    var r := a + b;
    if last == '\\' {
      BackslashRunPrefix(a, b, |a|);
      assert BackslashRun(r, |r|) == 2 + BackslashRun(a, |a|);
    }
  }

  // ---------------------------------------------------------------------
  // The generated line and how an extractor reads it back

  /** `'_("""{0}""")'.format(escape(body))`. An extractor reads the line
      back to exactly `body`: the literal closes where the line builder
      closed it, whatever quotes and backslashes the body holds. */
  function Line(body: string): (line: string)
    ensures ParseLine(line) == Some(body)
  {
    var l := "_(\"\"\"" + Escape(body) + "\"\"\")";
    assert ParseLine(l) == Some(body) by {
      assert l == "_(\"\"\"" + (EscapeEach(body) + "\"\"\"" + ")");
      assert l[5..] == EscapeEach(body) + "\"\"\"" + ")";
      ReadEscaped(body, ")");
    }
    l
  }

  /** Reads the inside of a `"""` literal from the start of `r`: returns the
      literal's value and the text after the closing `"""`, or `None` when
      the literal is not closed. The escapes `\\` and `\"` stand for `\` and
      `"`, the only escapes `Escape` produces; any other escape is outside
      that fragment and rejected. */
  function ReadTripleQuoted(r: string): Option<(string, string)> {
    if |r| >= 3 && r[0] == '"' && r[1] == '"' && r[2] == '"' then Some(("", r[3..]))
    else if |r| == 0 then None
    else if r[0] == '\\' then
      if |r| >= 2 && (r[1] == '\\' || r[1] == '"') then
        match ReadTripleQuoted(r[2..])
        case Some((v, rest)) => Some(([r[1]] + v, rest))
        case None => None
      else None
    else
      match ReadTripleQuoted(r[1..])
      case Some((v, rest)) => Some(([r[0]] + v, rest))
      case None => None
  }

  /** Reads a `_("""…""")` line back to the string it marks, or `None` when
      the line has another shape. */
  function ParseLine(line: string): Option<string> {
    if |line| >= 5 && line[..5] == "_(\"\"\"" then
      match ReadTripleQuoted(line[5..])
      case Some((v, rest)) => if rest == ")" then Some(v) else None
      case None => None
    else None
  }

  lemma {:induction false} ReadEscaped(s: string, rest: string)
    ensures ReadTripleQuoted(EscapeEach(s) + "\"\"\"" + rest) == Some((s, rest))
    decreases |s|
  {
    var r := EscapeEach(s) + "\"\"\"" + rest;
    if |s| == 0 {
      assert r == "\"\"\"" + rest;
      assert r[3..] == rest;
    } else {
      var tail := EscapeEach(s[1..]) + "\"\"\"" + rest;
      assert r == EscapeChar(s[0]) + tail;
      ReadEscaped(s[1..], rest);
      if s[0] == '\\' || s[0] == '"' {
        assert r[2..] == tail;
      } else {
        assert r[1..] == tail;
      }
      assert s == [s[0]] + s[1..];
    }
  }

  /** Distinct bodies give distinct lines. */
  lemma LineInjective(a: string, b: string)
    ensures Line(a) == Line(b) <==> a == b
  {
  }
}

=== FILE: make_messages.dfy ===
/** `templatize` of the `makemessages` extension: underscore templates in
    the registered scope get their `<%_ … _%>` markers rewritten into
    `_("""…""")` lines for the message extractor; every other file goes to
    Django's own `templatize` unchanged. The module-level registry and the
    monkey-patched hook become explicit parameters. */
module MakeMessages {
  import opened Wrappers
  import opened Text
  import Markers
  import Escaping
  import Scope

  /** The registered template directories and extensions (the module
      globals `template_dirs` and `template_exts`, extensions already
      normalised by the command). */
  datatype Registry = Registry(templateDirs: seq<string>, templateExts: seq<string>)

  /** What `templatize` consults outside itself: the directory walk,
      `os.path.abspath`, the content of a file by path, and Django's own
      `templatize` (the delegate, left uninterpreted). */
  datatype Environment = Environment(
    walk: Scope.Walk,
    abspath: string -> string,
    read: string -> string,
    baseTemplatize: (string, Option<string>) -> string)

  /** `[os.path.abspath(path) for path in find_paths()]`, as the set its
      one use tests membership in: the absolute path of every discovered
      path, and nothing else. */
  function ScopePaths(reg: Registry, env: Environment): (r: set<string>)
    ensures forall q :: q in r <==>
              exists p :: Scope.Discovered(reg.templateDirs, reg.templateExts, env.walk, p) && env.abspath(p) == q
  {
    set p | p in Scope.FindPaths(reg.templateDirs, reg.templateExts, env.walk) :: env.abspath(p)
  }

  /** `origin and os.path.abspath(origin) in paths`: a truthy origin is in
      scope exactly when its absolute path is that of some `join(root,
      name)` with `root` walked under a registered directory and `name`
      ending with a registered extension. */
  function InScope(reg: Registry, env: Environment, origin: Option<string>): (r: bool)
    ensures r <==> Truthy(origin) &&
                   exists p :: Scope.Discovered(reg.templateDirs, reg.templateExts, env.walk, p)
                               && env.abspath(p) == env.abspath(origin.value)
  {
    Truthy(origin) && env.abspath(origin.value) in ScopePaths(reg, env)
  }

  /** `units` holds the line of every body and nothing else, each once. */
  ghost predicate ListsLines(units: seq<string>, bodies: set<string>) {
    && |units| == |bodies|
    && Scope.NoDuplicates(units)
    && (forall b :: b in bodies ==> Escaping.Line(b) in units)
    && (forall i :: 0 <= i < |units| ==> exists b :: b in bodies && units[i] == Escaping.Line(b))
  }

  /** Iteration over a Python set: every element once, in an order the
      model leaves open. */
  method Enumerate(bodies: set<string>) returns (order: seq<string>)
    ensures |order| == |bodies|
    ensures Scope.NoDuplicates(order)
    ensures forall b :: b in order <==> b in bodies
  {
    var rest := bodies;
    order := [];
    while rest != {}
      invariant rest <= bodies
      invariant |order| == |bodies - rest|
      invariant Scope.NoDuplicates(order)
      invariant forall b :: b in order <==> b in bodies - rest
      decreases |rest|
    {
      var b :| b in rest;
      assert bodies - (rest - {b}) == (bodies - rest) + {b};
      order := order + [b];
      rest := rest - {b};
    }
    assert bodies - rest == bodies;
  }

  /** `_("""…""")` for each body of `order`, in that order: line `i` reads
      back to body `i`. */
  function LinesOf(order: seq<string>): (lines: seq<string>)
    ensures |lines| == |order|
    ensures forall i :: 0 <= i < |order| ==> Escaping.ParseLine(lines[i]) == Some(order[i])
  {
    seq(|order|, i requires 0 <= i < |order| => Escaping.Line(order[i]))
  }

  /** The lines of an enumeration of the bodies list every body's line once. */
  lemma LinesOfEnumeration(order: seq<string>, bodies: set<string>)
    requires |order| == |bodies| && Scope.NoDuplicates(order)
    requires forall b :: b in order <==> b in bodies
    ensures ListsLines(LinesOf(order), bodies)
  {
    var lines := LinesOf(order);
    forall i, j | 0 <= i < j < |lines|
      ensures lines[i] != lines[j]
    {
      Escaping.LineInjective(order[i], order[j]);
    }
    forall b | b in bodies
      ensures Escaping.Line(b) in lines
    {
      var i :| 0 <= i < |order| && order[i] == b;
      assert lines[i] == Escaping.Line(b);
    }
    forall i | 0 <= i < |lines|
      ensures exists b :: b in bodies && lines[i] == Escaping.Line(b)
    {
      assert order[i] in order;
    }
  }

  /** The list comprehension over the set of bodies: one `_("""…""")` line
      per body, in whatever order the set is iterated. */
  method BuildUnits(bodies: set<string>) returns (units: seq<string>)
    ensures |units| == |bodies|
    ensures Scope.NoDuplicates(units)
    ensures forall b :: b in bodies ==> Escaping.Line(b) in units
    ensures forall i :: 0 <= i < |units| ==> exists b :: b in bodies && units[i] == Escaping.Line(b)
  {
    var order := Enumerate(bodies);
    units := LinesOf(order);
    LinesOfEnumeration(order, bodies);
  }

  /** `templatize(src, origin)`. In scope, the text scanned is the content
      of the file at `origin`, not `src`; the result lists one line per
      distinct marker body, joined by newlines, in an unspecified order.
      Out of scope, the result is the delegate's. */
  method Templatize(reg: Registry, env: Environment, src: string, origin: Option<string>) returns (r: string)
    ensures !InScope(reg, env, origin) ==> r == env.baseTemplatize(src, origin)
    ensures InScope(reg, env, origin) ==>
              exists units :: ListsLines(units, Markers.Bodies(env.read(origin.value))) && r == JoinWith(units, '\n')
    ensures InScope(reg, env, origin) && Markers.Bodies(env.read(origin.value)) == {} ==> r == ""
  {
    if InScope(reg, env, origin) {
      var content := env.read(origin.value);
      var strings := Markers.Bodies(content);
      var units := BuildUnits(strings);
      assert ListsLines(units, strings);
      r := JoinWith(units, '\n');
    } else {
      r := env.baseTemplatize(src, origin);
    }
  }

  /** Reading the generated lines back gives the bodies: every line reads
      back to one of them, and every body is read back from some line. */
  lemma LinesReadBack(units: seq<string>, bodies: set<string>)
    requires ListsLines(units, bodies)
    ensures forall u :: u in units ==> Escaping.ParseLine(u).Some? && Escaping.ParseLine(u).value in bodies
    ensures forall b :: b in bodies ==> exists u :: u in units && Escaping.ParseLine(u) == Some(b)
  {
    LinesReadBackToBodies(units, bodies);
    BodiesReadBackFromLines(units, bodies);
  }

  lemma LinesReadBackToBodies(units: seq<string>, bodies: set<string>)
    requires ListsLines(units, bodies)
    ensures forall u :: u in units ==> Escaping.ParseLine(u).Some? && Escaping.ParseLine(u).value in bodies
  {
    forall u | u in units
      ensures Escaping.ParseLine(u).Some? && Escaping.ParseLine(u).value in bodies
    {
      var i :| 0 <= i < |units| && units[i] == u;
      var b :| b in bodies && u == Escaping.Line(b);
    }
  }

  lemma BodiesReadBackFromLines(units: seq<string>, bodies: set<string>)
    requires ListsLines(units, bodies)
    ensures forall b :: b in bodies ==> exists u :: u in units && Escaping.ParseLine(u) == Some(b)
  {
    forall b | b in bodies
      ensures exists u :: u in units && Escaping.ParseLine(u) == Some(b)
    {
      assert Escaping.ParseLine(Escaping.Line(b)) == Some(b);
    }
  }

  /** A template holding the same marker twice yields a single line. */
  lemma RepeatedMarkerOneLine(body: string, units: seq<string>)
    requires !Markers.HasEndTag(body)
    requires ListsLines(units, Markers.Bodies(Markers.Marker(body) + Markers.Marker(body)))
    ensures units == [Escaping.Line(body)]
  {
    Markers.RepeatedMarkerOneBody(body);
    assert |units| == 1;
    assert Escaping.Line(body) in units;
  }

  /** Two distinct bodies give their two lines, in either order. */
  lemma TwoBodiesTwoLines(units: seq<string>, a: string, b: string)
    requires a != b
    requires ListsLines(units, {a, b})
    ensures units == [Escaping.Line(a), Escaping.Line(b)] || units == [Escaping.Line(b), Escaping.Line(a)]
  {
    Escaping.LineInjective(a, b);
    assert |{a, b}| == 2;
    var la, lb := Escaping.Line(a), Escaping.Line(b);
    assert la in units && lb in units && la != lb;
    if units[0] == la {
      assert units[1] == lb;
    } else {
      assert units[0] == lb && units[1] == la;
    }
  }
}

=== FILE: markers.dfy ===
/** The underscore-template marker scanner of `templatize`: the effect of
    `re.findall('<%_(.*?)_%>', content, flags=re.DOTALL)`, written as a
    direct left-to-right search, together with a declarative reference
    definition of what that call returns and the lemmas relating the two. */
module Markers {
  import opened Wrappers

  const StartTag: string := "<%_"
  const EndTag: string := "_%>"

  /** The start delimiter `<%_` begins at index `i` of `s`. */
  predicate StartTagAt(s: string, i: int) {
    0 <= i && i + 3 <= |s| && s[i] == '<' && s[i + 1] == '%' && s[i + 2] == '_'
  }

  /** The end delimiter `_%>` begins at index `i` of `s`. */
  predicate EndTagAt(s: string, i: int) {
    0 <= i && i + 3 <= |s| && s[i] == '_' && s[i + 1] == '%' && s[i + 2] == '>'
  }

  ghost predicate HasEndTag(s: string) {
    exists i :: EndTagAt(s, i)
  }

  /** A marker wrapping `body`. */
  function Marker(body: string): string {
    StartTag + body + EndTag
  }

  /** The first end delimiter at or after index `k`: what the lazy `(.*?)`
      settles on once the start delimiter has matched. */
  function FirstEnd(s: string, k: nat): (r: Option<nat>)
    requires k <= |s|
    ensures r.Some? ==> k <= r.value && EndTagAt(s, r.value)
    ensures r.Some? ==> forall m :: k <= m < r.value ==> !EndTagAt(s, m)
    ensures r.None? ==> forall m :: k <= m ==> !EndTagAt(s, m)
    decreases |s| - k
  {
    if k + 3 > |s| then None
    else if EndTagAt(s, k) then Some(k)
    else FirstEnd(s, k + 1)
  }

  /** An end delimiter inside a slice is an end delimiter of the whole text. */
  lemma EndTagInSlice(s: string, a: nat, b: nat, j: int)
    requires a <= b <= |s|
    requires EndTagAt(s[a..b], j)
    ensures EndTagAt(s, a + j)
  {
  }

  /** The captured group of every match, left to right, as `re.findall`
      returns it. A match is attempted at each position in turn; once one
      succeeds, scanning resumes after its end delimiter. No body contains
      the end delimiter, because the lazy group stops at the first one. */
  function FindAll(s: string): (bodies: seq<string>)
    ensures forall i :: 0 <= i < |bodies| ==> !HasEndTag(bodies[i])
    decreases |s|
  {
    if StartTagAt(s, 0) then
      match FirstEnd(s, 3)
      case Some(e) =>
        var body := s[3..e];
        assert !HasEndTag(body) by {
          forall j | EndTagAt(body, j)
            ensures false
          {
            EndTagInSlice(s, 3, e, j);
          }
        }
        [body] + FindAll(s[e + 3..])
      case None => FindAll(s[1..])
    else if |s| == 0 then []
    else FindAll(s[1..])
  }

  /** The distinct captured bodies, `set(re.findall(...))`: exactly the
      elements of the list the reference definition gives, none holding an
      end delimiter. */
  function Bodies(s: string): (r: set<string>)
    ensures forall b :: b in r <==> exists bodies :: IsFindAll(s, bodies) && b in bodies
    ensures forall b :: b in r ==> !HasEndTag(b)
  {
    FindAllIsAFindAll(s);
    assert forall bodies :: IsFindAll(s, bodies) ==> bodies == FindAll(s) by {
      forall bodies | IsFindAll(s, bodies)
        ensures bodies == FindAll(s)
      {
        IsFindAllUnique(s, bodies, FindAll(s));
      }
    }
    set b | b in FindAll(s)
  }

  // ---------------------------------------------------------------------
  // Reference definition of the regex result

  /** Some start delimiter is followed, later on, by an end delimiter that
      does not overlap it: the pattern matches somewhere in `s`. */
  ghost predicate HasMatch(s: string) {
    exists p, e :: StartTagAt(s, p) && p + 3 <= e && EndTagAt(s, e)
  }

  /** The leftmost match of the pattern starts at `p` and captures `body`:
      `p` is the first start delimiter of `s`, and `body` runs from just after
      it to the first end delimiter that follows. */
  ghost predicate IsLeftmostMatch(s: string, p: int, body: string) {
    && StartTagAt(s, p)
    && (forall q :: 0 <= q < p ==> !StartTagAt(s, q))
    && EndTagAt(s, p + 3 + |body|)
    && s[p + 3..p + 3 + |body|] == body
    && (forall k :: p + 3 <= k < p + 3 + |body| ==> !EndTagAt(s, k))
  }

  /** `bodies` is what `re.findall` returns for `s`: nothing when the pattern
      matches nowhere, otherwise the leftmost match's body followed by the
      bodies found in the text after that match. */
  ghost predicate IsFindAll(s: string, bodies: seq<string>)
    decreases |bodies|
  {
    if bodies == [] then !HasMatch(s)
    else exists p :: IsLeftmostMatch(s, p, bodies[0])
                     && IsFindAll(s[p + 3 + |bodies[0]| + 3..], bodies[1..])
  }

  /** Dropping a first character that starts no delimiter changes neither
      whether there is a match nor where the matches are. */
  lemma HasMatchTail(s: string)
    requires |s| > 0
    ensures HasMatch(s[1..]) ==> HasMatch(s)
    ensures HasMatch(s) && !StartTagAt(s, 0) ==> HasMatch(s[1..])
  {
    var t := s[1..];
    if HasMatch(t) {
      var p, e :| StartTagAt(t, p) && p + 3 <= e && EndTagAt(t, e);
      assert StartTagAt(s, p + 1) && EndTagAt(s, e + 1);
    }
    if HasMatch(s) && !StartTagAt(s, 0) {
      var p, e :| StartTagAt(s, p) && p + 3 <= e && EndTagAt(s, e);
      assert StartTagAt(t, p - 1) && EndTagAt(t, e - 1);
    }
  }

  /** Text in which the pattern matches nowhere yields no bodies. */
  lemma {:induction false} NoMatchNoBodies(s: string)
    requires !HasMatch(s)
    ensures FindAll(s) == []
    decreases |s|
  {
    if |s| > 0 {
      HasMatchTail(s);
      NoMatchNoBodies(s[1..]);
    }
  }

  /** A leftmost match of `s[1..]` is, one place further on, the leftmost
      match of `s` when `s` does not open with a start delimiter. */
  lemma LeftmostMatchTail(s: string, p: int, b: string)
    requires |s| > 0 && !StartTagAt(s, 0)
    requires IsLeftmostMatch(s[1..], p, b)
    ensures IsLeftmostMatch(s, p + 1, b)
  {
    var t := s[1..];
    forall q | 0 <= q < p + 1
      ensures !StartTagAt(s, q)
    {
      if q > 0 {
        assert !StartTagAt(t, q - 1);
      }
    }
    forall k | p + 1 + 3 <= k < p + 1 + 3 + |b|
      ensures !EndTagAt(s, k)
    {
      assert !EndTagAt(t, k - 1);
    }
    assert s[p + 1 + 3..p + 1 + 3 + |b|] == t[p + 3..p + 3 + |b|];
  }

  /** The text left after the leftmost match that captured `b` at `p`. */
  function After(s: string, p: int, b: string): string
    requires 0 <= p && p + 3 + |b| + 3 <= |s|
  {
    s[p + 3 + |b| + 3..]
  }

  /** A non-empty reference result starts with the leftmost match's body and
      continues with a reference result for the text after it. */
  lemma IsFindAllStep(s: string, bodies: seq<string>) returns (p: int)
    requires bodies != [] && IsFindAll(s, bodies)
    ensures IsLeftmostMatch(s, p, bodies[0])
    ensures IsFindAll(After(s, p, bodies[0]), bodies[1..])
  {
    p :| IsLeftmostMatch(s, p, bodies[0]) && IsFindAll(s[p + 3 + |bodies[0]| + 3..], bodies[1..]);
  }

  /** A leftmost match followed by a reference result for the text after
      it makes a reference result. */
  lemma IsFindAllIntro(s: string, p: int, bodies: seq<string>)
    requires bodies != [] && IsLeftmostMatch(s, p, bodies[0])
    requires IsFindAll(After(s, p, bodies[0]), bodies[1..])
    ensures IsFindAll(s, bodies)
  {
  }

  /** A reference result for `s[1..]` is one for `s` when `s` does not open
      with a start delimiter. */
  lemma IsFindAllTail(s: string, bodies: seq<string>)
    requires |s| > 0 && !StartTagAt(s, 0)
    requires IsFindAll(s[1..], bodies)
    ensures IsFindAll(s, bodies)
  {
    var t := s[1..];
    if bodies == [] {
      HasMatchTail(s);
    } else {
      var b := bodies[0];
      var p := IsFindAllStep(t, bodies);
      LeftmostMatchTail(s, p, b);
      assert After(s, p + 1, b) == After(t, p, b);
      IsFindAllIntro(s, p + 1, bodies);
    }
  }

  /** A text opening with a start delimiter that is never closed has no
      match at all: every match would end after index 3. */
  lemma UnclosedStartNoMatch(s: string)
    requires StartTagAt(s, 0) && FirstEnd(s, 3).None?
    ensures !HasMatch(s)
  {
  }

  /** The scanner meets the reference definition. */
  lemma {:induction false} FindAllIsAFindAll(s: string)
    ensures IsFindAll(s, FindAll(s))
    decreases |s|
  {
    if StartTagAt(s, 0) {
      match FirstEnd(s, 3)
      case Some(e) =>
        var body := s[3..e];
        var bodies := FindAll(s);
        assert bodies == [body] + FindAll(s[e + 3..]);
        assert IsLeftmostMatch(s, 0, body);
        FindAllIsAFindAll(s[e + 3..]);
        assert After(s, 0, body) == s[e + 3..] && bodies[1..] == FindAll(s[e + 3..]);
        IsFindAllIntro(s, 0, bodies);
      case None =>
        UnclosedStartNoMatch(s);
        HasMatchTail(s);
        NoMatchNoBodies(s[1..]);
    } else if |s| > 0 {
      FindAllIsAFindAll(s[1..]);
      IsFindAllTail(s, FindAll(s[1..]));
    }
  }

  /** There is one leftmost match: its position and its body are fixed. */
  lemma LeftmostMatchUnique(s: string, p: int, b: string, q: int, c: string)
    requires IsLeftmostMatch(s, p, b) && IsLeftmostMatch(s, q, c)
    ensures p == q && b == c
  {
  }

  /** The reference definition admits one result per text. */
  lemma {:induction false} IsFindAllUnique(s: string, x: seq<string>, y: seq<string>)
    requires IsFindAll(s, x) && IsFindAll(s, y)
    ensures x == y
    decreases |x|
  {
    if x == [] && y != [] {
      var p := IsFindAllStep(s, y);
    } else if x != [] && y == [] {
      var p := IsFindAllStep(s, x);
    } else if x != [] {
      var p := IsFindAllStep(s, x);
      var q := IsFindAllStep(s, y);
      LeftmostMatchUnique(s, p, x[0], q, y[0]);
      IsFindAllUnique(After(s, p, x[0]), x[1..], y[1..]);
      assert x == [x[0]] + x[1..] && y == [y[0]] + y[1..];
    }
  }

  /** The scanner returns exactly what `re.findall` returns: a list meets the
      reference definition if and only if it is the scanner's result. */
  lemma FindAllCharacterized(s: string, bodies: seq<string>)
    ensures IsFindAll(s, bodies) <==> bodies == FindAll(s)
  {
    FindAllIsAFindAll(s);
    if IsFindAll(s, bodies) {
      IsFindAllUnique(s, bodies, FindAll(s));
    }
  }

  // ---------------------------------------------------------------------
  // Consequences for concrete shapes of text

  /** A marker whose body holds no end delimiter is matched as a whole,
      whatever the body holds otherwise (newlines included, since the
      pattern is compiled with DOTALL, and start delimiters included), and
      scanning resumes right after it. */
  lemma MarkerThen(body: string, rest: string)
    requires !HasEndTag(body)
    ensures FindAll(Marker(body) + rest) == [body] + FindAll(rest)
  {
    var s := Marker(body) + rest;
    var e := 3 + |body|;
    assert s[..3] == StartTag && s[3..e] == body && s[e..e + 3] == EndTag && s[e + 3..] == rest;
    assert StartTagAt(s, 0);
    assert EndTagAt(s, e);
    forall m | 3 <= m < e
      ensures !EndTagAt(s, m)
    {
      if m + 3 <= e {
        assert s[m..m + 3] == body[m - 3..m];
        assert !EndTagAt(body, m - 3);
      }
    }
    assert FirstEnd(s, 3) == Some(e);
  }

  /** A leading character other than `<` starts no marker. */
  lemma SkipChar(c: char, rest: string)
    requires c != '<'
    ensures FindAll([c] + rest) == FindAll(rest)
  {
    assert ([c] + rest)[1..] == rest;
  }

  /** Without an end delimiter there is nothing to capture: an unterminated
      `<%_` yields no body and no error. */
  lemma NoEndTagNoBodies(s: string)
    requires !HasEndTag(s)
    ensures FindAll(s) == []
  {
    NoMatchNoBodies(s);
  }

  /** The shortest match, `<%__%>`, is six characters long; in particular
      `<%_%>` matches nothing, as its two delimiters would have to share the
      middle underscore. */
  lemma ShortTextNoBodies(s: string)
    requires |s| < 6
    ensures FindAll(s) == []
  {
    NoMatchNoBodies(s);
  }

  /** `<%_%>` captures nothing. */
  lemma SharedUnderscoreNoMatch()
    ensures FindAll("<%_%>") == []
  {
    ShortTextNoBodies("<%_%>");
  }

  /** A body may contain a start delimiter: the lazy group runs from the
      first `<%_` to the first `_%>` after it. */
  lemma NestedStartIsBody()
    ensures FindAll("<%_ a <%_ b _%>") == [" a <%_ b "]
  {
    var body := " a <%_ b ";
    assert !HasEndTag(body);
    MarkerThen(body, "");
    assert Marker(body) + "" == "<%_ a <%_ b _%>";
    NoMatchNoBodies("");
  }

  /** A marker repeated gives one body. */
  lemma RepeatedMarkerOneBody(body: string)
    requires !HasEndTag(body)
    ensures Bodies(Marker(body) + Marker(body)) == {body}
  {
    MarkerThen(body, Marker(body));
    MarkerThen(body, "");
    assert Marker(body) + "" == Marker(body);
    NoMatchNoBodies("");
    assert FindAll(Marker(body) + Marker(body)) == [body, body];
  }

  /** Two markers separated by a character other than `<` give their two
      bodies, in order. */
  lemma TwoMarkers(a: string, c: char, b: string)
    requires !HasEndTag(a) && !HasEndTag(b) && c != '<'
    ensures FindAll(Marker(a) + [c] + Marker(b)) == [a, b]
  {
    assert Marker(a) + [c] + Marker(b) == Marker(a) + ([c] + (Marker(b) + ""));
    MarkerThen(a, [c] + (Marker(b) + ""));
    SkipChar(c, Marker(b) + "");
    MarkerThen(b, "");
    NoMatchNoBodies("");
  }

  /** A text without `%` holds no end delimiter. */
  lemma NoPercentNoEndTag(s: string)
    requires '%' !in s
    ensures !HasEndTag(s)
  {
    forall i | 0 <= i < |s|
      ensures s[i] != '%'
    {
    }
  }

  /** Two markers on two lines give their two bodies, such as ` Save ` and
      ` Cancel ` for `<%_ Save _%>` newline `<%_ Cancel _%>`. */
  lemma TwoLinesTwoBodies(a: string, b: string)
    requires '%' !in a && '%' !in b
    ensures Bodies(Marker(a) + "\n" + Marker(b)) == {a, b}
  {
    NoPercentNoEndTag(a);
    NoPercentNoEndTag(b);
    TwoMarkers(a, '\n', b);
    BodiesAreFound(Marker(a) + "\n" + Marker(b));
    assert (set x | x in [a, b]) == {a, b};
  }

  /** The bodies are the elements of the scan's list. */
  lemma BodiesAreFound(s: string)
    ensures Bodies(s) == set b | b in FindAll(s)
  {
  }
}

=== FILE: paths.dfy ===
/** The two `os.path` operations the commands use, with POSIX (`posixpath`)
    semantics: `join` and `splitext`. */
module Paths {
  import opened Text

  /** `os.path.join(a, b)`: the result ends with `b`; an absolute `b`
      replaces `a`. Otherwise the result starts with `a`, and a `/` is put
      between the two exactly when `a` is non-empty and does not already end
      with one; nothing else is added. */
  function Join(a: string, b: string): (r: string)
    ensures EndsWith(r, b)
    ensures |b| > 0 && b[0] == '/' ==> r == b
    ensures (|b| == 0 || b[0] != '/') ==> a <= r
    ensures (|b| == 0 || b[0] != '/') && (|a| == 0 || a[|a| - 1] == '/') ==> |r| == |a| + |b|
    ensures (|b| == 0 || b[0] != '/') && |a| > 0 && a[|a| - 1] != '/' ==> |r| == |a| + 1 + |b| && r[|a|] == '/'
  {
    if |b| > 0 && b[0] == '/' then b
    else if |a| == 0 || a[|a| - 1] == '/' then a + b
    else a + "/" + b
  }

  /** Joining two pieces with no slash at the seam puts one `/` between
      them. */
  lemma JoinAtSeam(a: string, b: string)
    requires a != "" && a[|a| - 1] != '/' && (b == "" || b[0] != '/')
    ensures Join(a, b) == a + "/" + b
  {
  }

  /** The components of `x/y` are those of `x` followed by those of `y`. */
  lemma SplitAtSlash(x: string, y: string)
    ensures SplitOn(x + "/" + y, '/') == SplitOn(x, '/') + SplitOn(y, '/')
  {
    var xs, ys := SplitOn(x, '/'), SplitOn(y, '/');
    var parts := xs + ys;
    assert JoinWith(parts, '/') == x + "/" + y by {
      JoinWithAppend(xs, ys, '/');
    }
    assert forall i :: 0 <= i < |parts| ==> '/' !in parts[i] by {
      forall i | 0 <= i < |parts|
        ensures '/' !in parts[i]
      {
        if i >= |xs| {
          assert parts[i] == ys[i - |xs|];
        }
      }
    }
    SplitUnique(x + "/" + y, '/', parts);
  }

  /** With no slash at the seam, the components of the joined path are those
      of `a` followed by those of `b`: `join` adds exactly one separator and
      changes nothing else. */
  lemma SplitOfJoin(a: string, b: string)
    requires a != "" && a[|a| - 1] != '/' && (b == "" || b[0] != '/')
    ensures SplitOn(Join(a, b), '/') == SplitOn(a, '/') + SplitOn(b, '/')
  {
    JoinAtSeam(a, b);
    SplitAtSlash(a, b);
  }

  /** When `a` is empty or already ends with `/`, `join` adds no separator:
      the empty last component of `a` gives way to the components of a
      relative `b`. */
  lemma SplitOfJoinAfterSeparator(a: string, b: string)
    requires (a == "" || a[|a| - 1] == '/') && (b == "" || b[0] != '/')
    ensures SplitOn(Join(a, b), '/') == SplitOn(a, '/')[..|SplitOn(a, '/')| - 1] + SplitOn(b, '/')
  {
    if a == "" {
      assert Join(a, b) == b;
    } else {
      var x := a[..|a| - 1];
      assert a == x + "/";
      SplitEndingInSlash(x);
      var xs := SplitOn(x, '/');
      assert (xs + [""])[..|xs + [""]| - 1] == xs;
      assert Join(a, b) == x + "/" + b;
      SplitAtSlash(x, b);
    }
  }

  /** A trailing `/` adds one empty component. */
  lemma SplitEndingInSlash(x: string)
    ensures SplitOn(x + "/", '/') == SplitOn(x, '/') + [""]
  {
    SplitAtSlash(x, "");
    assert x + "/" + "" == x + "/";
  }

  /** `s.rfind(c)`: the index of the last `c` in `s`, or -1 when there is none. */
  function RFind(s: string, c: char): (i: int)
    ensures -1 <= i < |s|
    ensures i >= 0 ==> s[i] == c
    ensures forall k :: i < k < |s| ==> s[k] != c
  {
    LastBefore(s, c, |s|)
  }

  /** The index of the last `c` among the first `n` characters of `s`. */
  function LastBefore(s: string, c: char, n: nat): (i: int)
    requires n <= |s|
    ensures -1 <= i < n
    ensures i >= 0 ==> s[i] == c
    ensures forall k :: i < k < n ==> s[k] != c
  {
    if n == 0 then -1
    else if s[n - 1] == c then n - 1
    else LastBefore(s, c, n - 1)
  }

  predicate AllDots(s: string) {
    forall k :: 0 <= k < |s| ==> s[k] == '.'
  }

  /** What `splitext` may return as an extension: nothing, or a dot followed
      by text holding neither a dot nor a `/`. */
  predicate IsExtension(e: string) {
    e == "" || (e[0] == '.' && '/' !in e && '.' !in e[1..])
  }

  /** No `/` lies in `p[j..k]`: indexes `j` and `k` are in one component. */
  predicate SameComponent(p: string, j: int, k: int)
    requires 0 <= j <= k <= |p|
  {
    forall m :: j <= m < k ==> p[m] != '/'
  }

  /** `splitext` may cut `p` at `k`: from `k` on is a non-empty extension,
      and some character other than a dot comes before `k` in the same
      component (a hidden file such as `.po` has no extension). */
  predicate IsCut(p: string, k: int) {
    && 0 <= k < |p|
    && IsExtension(p[k..])
    && exists j :: 0 <= j < k && p[j] != '.' && SameComponent(p, j, k)
  }

  /** Where `splitext` cuts `p`, -1 when it may not be cut anywhere. */
  function ExtensionStart(p: string): (d: int)
    ensures -1 <= d < |p|
    ensures d >= 0 ==> IsCut(p, d)
    ensures d < 0 ==> forall k :: 0 <= k < |p| ==> !IsCut(p, k)
  {
    CutFrom(p, RFind(p, '/'), RFind(p, '.'))
  }

  /** The decision of `splitext` from the last `/` and the last dot of `p`:
      cut at that dot when something other than dots lies between the two. */
  function CutFrom(p: string, sepIndex: int, dotIndex: int): (d: int)
    requires -1 <= sepIndex < |p| && (sepIndex >= 0 ==> p[sepIndex] == '/')
    requires forall m :: sepIndex < m < |p| ==> p[m] != '/'
    requires -1 <= dotIndex < |p| && (dotIndex >= 0 ==> p[dotIndex] == '.')
    requires forall m :: dotIndex < m < |p| ==> p[m] != '.'
    ensures -1 <= d < |p|
    ensures d >= 0 ==> IsCut(p, d)
    ensures d < 0 ==> forall k :: 0 <= k < |p| ==> !IsCut(p, k)
  {
    if dotIndex > sepIndex && !AllDots(p[sepIndex + 1..dotIndex]) then
      assert IsCut(p, dotIndex) by {
        CutAtLastDot(p, sepIndex, dotIndex);
      }
      dotIndex
    else
      assert forall k :: 0 <= k < |p| ==> !IsCut(p, k) by {
        NoCut(p, sepIndex, dotIndex);
      }
      -1
  }

  /** Unless the last dot follows the last `/` with something other than
      dots between them, `p` may be cut nowhere. */
  lemma NoCut(p: string, sepIndex: int, dotIndex: int)
    requires -1 <= sepIndex < |p| && (sepIndex >= 0 ==> p[sepIndex] == '/')
    requires -1 <= dotIndex < |p| && (dotIndex >= 0 ==> p[dotIndex] == '.')
    requires forall m :: dotIndex < m < |p| ==> p[m] != '.'
    requires !(dotIndex > sepIndex && !AllDots(p[sepIndex + 1..dotIndex]))
    ensures forall k :: 0 <= k < |p| ==> !IsCut(p, k)
  {
    forall k | IsCut(p, k)
      ensures false
    {
      ExtensionTail(p, k);
      assert k == dotIndex;
      assert sepIndex < k;
      DotsBetween(p, sepIndex + 1, k);
      NoCutBeforeDots(p, sepIndex, k);
    }
  }

  /** The last dot cuts when it follows the last `/` with something other
      than dots between them. */
  lemma CutAtLastDot(p: string, sepIndex: int, dotIndex: int)
    requires -1 <= sepIndex < dotIndex < |p|
    requires forall m :: sepIndex < m < |p| ==> p[m] != '/'
    requires p[dotIndex] == '.' && forall m :: dotIndex < m < |p| ==> p[m] != '.'
    requires !AllDots(p[sepIndex + 1..dotIndex])
    ensures IsCut(p, dotIndex)
  {
    ExtensionShape(p, dotIndex);
    var m :| 0 <= m < dotIndex - sepIndex - 1 && p[sepIndex + 1..dotIndex][m] != '.';
    var j := sepIndex + 1 + m;
    assert p[j] != '.' && SameComponent(p, j, dotIndex);
  }

  /** Only dots between the last `/` and `k` leave nothing to cut at `k`:
      any other character before `k` has that `/` between it and `k`. */
  lemma NoCutBeforeDots(p: string, sepIndex: int, k: int)
    requires -1 <= sepIndex < k < |p|
    requires sepIndex >= 0 ==> p[sepIndex] == '/'
    requires forall m :: sepIndex < m < k ==> p[m] == '.'
    ensures forall j :: 0 <= j < k && p[j] != '.' ==> !SameComponent(p, j, k)
  {
    forall j | 0 <= j < k && p[j] != '.'
      ensures !SameComponent(p, j, k)
    {
      assert j <= sepIndex;
      assert p[sepIndex] == '/';
    }
  }

  lemma DotsBetween(p: string, lo: int, hi: int)
    requires 0 <= lo <= hi <= |p| && AllDots(p[lo..hi])
    ensures forall m :: lo <= m < hi ==> p[m] == '.'
  {
    forall m | lo <= m < hi
      ensures p[m] == '.'
    {
      assert p[lo..hi][m - lo] == p[m];
    }
  }

  /** `os.path.splitext(p)`: a root and an extension that put back together
      give `p`; the extension is non-empty exactly when `p` may be cut, and
      then the cut is at the last dot of the last component. */
  function SplitExt(p: string): (r: (string, string))
    ensures r.0 + r.1 == p
    ensures IsExtension(r.1)
    ensures r.1 != "" ==> IsCut(p, |r.0|)
    ensures r.1 == "" <==> forall k :: 0 <= k < |p| ==> !IsCut(p, k)
  {
    var d := ExtensionStart(p);
    if d < 0 then (p, "") else (p[..d], p[d..])
  }

  /** At most one place cuts a path: a non-empty extension starts at the
      last dot. */
  lemma CutUnique(p: string, j: int, k: int)
    requires IsCut(p, j) && IsCut(p, k)
    ensures j == k
  {
    CutIsLastDot(p, j);
    CutIsLastDot(p, k);
  }

  /** A non-empty extension starts at the last dot, after the last `/`. */
  lemma CutIsLastDot(p: string, k: int)
    requires 0 <= k < |p| && IsExtension(p[k..])
    ensures RFind(p, '.') == k && RFind(p, '/') < k
  {
    ExtensionTail(p, k);
    RFindIs(p, '.', k);
  }

  /** An extension starting at `k` is a dot with no dot and no `/` after it. */
  lemma ExtensionTail(p: string, k: int)
    requires 0 <= k < |p| && IsExtension(p[k..])
    ensures p[k] == '.'
    ensures forall j :: k < j < |p| ==> p[j] != '.' && p[j] != '/'
  {
    var e := p[k..];
    assert p[k] == e[0];
    forall j | k < j < |p|
      ensures p[j] != '.' && p[j] != '/'
    {
      assert p[j] == e[j - k] == e[1..][j - k - 1];
    }
  }

  lemma AbsentFromSuffix(s: string, c: char, i: nat)
    requires i <= |s|
    requires forall k :: i <= k < |s| ==> s[k] != c
    ensures c !in s[i..]
  {
  }

  /** The text from the last dot on holds one dot and no `/` when no `/`
      follows that dot. */
  lemma ExtensionShape(p: string, dotIndex: int)
    requires 0 <= dotIndex < |p| && p[dotIndex] == '.'
    requires forall k :: dotIndex < k < |p| ==> p[k] != '.' && p[k] != '/'
    ensures IsExtension(p[dotIndex..])
  {
    AbsentFromSuffix(p, '.', dotIndex + 1);
    AbsentFromSuffix(p, '/', dotIndex);
    assert p[dotIndex..][1..] == p[dotIndex + 1..];
  }

  /** `os.path.splitext(f)[0]`, the file name without its extension: a
      prefix of `f` that stops at the one place `f` may be cut, and all of
      `f` when there is none. */
  function Stem(f: string): (r: string)
    ensures r <= f && IsExtension(f[|r|..])
    ensures |r| < |f| ==> IsCut(f, |r|)
    ensures r == f <==> forall k :: 0 <= k < |f| ==> !IsCut(f, k)
  {
    SplitExt(f).0
  }

  /** `RFind` is pinned down by its contract: the index holding `c` with no
      `c` after it. */
  lemma RFindIs(s: string, c: char, i: int)
    requires -1 <= i < |s|
    requires i >= 0 ==> s[i] == c
    requires forall k :: i < k < |s| ==> s[k] != c
    ensures RFind(s, c) == i
  {
    LastBeforeIs(s, c, |s|, i);
  }

  lemma {:induction false} LastBeforeIs(s: string, c: char, n: nat, i: int)
    requires n <= |s| && -1 <= i < n
    requires i >= 0 ==> s[i] == c
    requires forall k :: i < k < n ==> s[k] != c
    ensures LastBefore(s, c, n) == i
    decreases n
  {
    if n > 0 && s[n - 1] != c {
      LastBeforeIs(s, c, n - 1, i);
    }
  }

  /** In `name.ext` with no dot and no `/` in `ext`, the last dot is the
      one before `ext`. */
  lemma LastDotOfFileName(name: string, ext: string)
    requires '/' !in ext && '.' !in ext
    ensures RFind(name + "." + ext, '.') == |name|
  {
    NoDotAfter(name, ext);
    RFindIs(name + "." + ext, '.', |name|);
  }

  lemma NoDotAfter(name: string, ext: string)
    requires '.' !in ext
    ensures forall k :: |name| < k < |name + "." + ext| ==> (name + "." + ext)[k] != '.'
  {
    var p := name + "." + ext;
    forall k | |name| < k < |p|
      ensures p[k] != '.'
    {
      assert p[k] == ext[k - |name| - 1];
    }
  }

  /** `name.ext` holds no `/` when neither part does. */
  lemma NoSlashInFileName(name: string, ext: string)
    requires '/' !in name && '/' !in ext
    ensures RFind(name + "." + ext, '/') == -1
  {
    NoSlashIn(name, ext);
    RFindIs(name + "." + ext, '/', -1);
  }

  lemma NoSlashIn(name: string, ext: string)
    requires '/' !in name && '/' !in ext
    ensures forall k :: 0 <= k < |name + "." + ext| ==> (name + "." + ext)[k] != '/'
  {
    var p := name + "." + ext;
    forall k | 0 <= k < |p|
      ensures p[k] != '/'
    {
      if k < |name| {
        assert p[k] == name[k];
      } else if k > |name| {
        assert p[k] == ext[k - |name| - 1];
      }
    }
  }

  /** `splitext` cuts `name.ext` at the dot before `ext` when `name` is not
      all dots. */
  lemma FileNameExtensionStart(name: string, ext: string)
    requires '/' !in name && '/' !in ext && '.' !in ext
    requires exists k :: 0 <= k < |name| && name[k] != '.'
    ensures ExtensionStart(name + "." + ext) == |name|
  {
    var p := name + "." + ext;
    LastDotOfFileName(name, ext);
    NoSlashInFileName(name, ext);
    var k :| 0 <= k < |name| && name[k] != '.';
    assert p[0..|name|] == name;
    assert !AllDots(p[0..|name|]) by {
      assert p[0..|name|][k] != '.';
    }
  }

  /** A plain file name `name.ext` splits at its one dot. */
  lemma SplitExtOfFileName(name: string, ext: string)
    requires '/' !in name && '/' !in ext && '.' !in ext
    requires exists k :: 0 <= k < |name| && name[k] != '.'
    ensures SplitExt(name + "." + ext) == (name, "." + ext)
  {
    var e := "." + ext;
    assert name + "." + ext == name + e;
    assert ExtensionStart(name + e) == |name| by {
      FileNameExtensionStart(name, ext);
    }
    SplitExtAtJoin(name, e);
  }

  /** Cutting `a + b` at `|a|` gives back `a` and `b`. */
  lemma SplitExtAtJoin(a: string, b: string)
    requires ExtensionStart(a + b) == |a| < |a + b|
    ensures SplitExt(a + b) == (a, b)
  {
    CutAtJoin(a, b);
  }

  lemma CutAtJoin(a: string, b: string)
    ensures (a + b)[..|a|] == a && (a + b)[|a|..] == b
  {
  }
}

=== FILE: scope.dfy ===
/** Which files `templatize` treats as underscore templates: the walk of
    `update_matches` and `find_paths` over every registered directory and
    extension. The directory walk (`os.walk`) is an input: for each
    directory, the `(root, filenames)` pairs it yields, in order. */
module Scope {
  import opened Text
  import opened Paths

  /** One `(root, dirnames, filenames)` triple yielded by `os.walk`; the
      sub-directory names play no part in the scope. */
  datatype WalkEntry = WalkEntry(root: string, filenames: seq<string>)

  type Walk = string -> seq<WalkEntry>

  /** The `matches` dictionary: walked root -> the paths listed under it. */
  type Matches = map<string, seq<string>>

  /** Which duplicate check guards the append in `update_matches`. */
  datatype Guard =
    | AsWritten   // `filename not in matches[root]`: a bare name against joined paths
    | Corrected   // `join(root, filename) not in matches[root]`

  /** `fnmatch.filter(names, '*' + ext)`: the names ending with `ext`, in
      their order. */
  function FilterSuffix(names: seq<string>, ext: string): (r: seq<string>)
    ensures forall n :: n in r <==> n in names && EndsWith(n, ext)
    ensures |r| <= |names|
  {
    if names == [] then []
    else (if EndsWith(names[0], ext) then [names[0]] else []) + FilterSuffix(names[1..], ext)
  }

  /** `for dir, paths in all_matches.items(): all_paths.extend(paths)`, as
      the set its one caller tests membership in: every path of every list,
      and nothing else. */
  function AllPaths(m: Matches): (r: set<string>)
    ensures forall k, i :: k in m && 0 <= i < |m[k]| ==> m[k][i] in r
    ensures forall p :: p in r ==> exists k :: k in m && p in m[k]
  {
    var r := set k, p | k in m && p in m[k] :: p;
    assert forall k, i :: k in m && 0 <= i < |m[k]| ==> m[k][i] in r by {
      forall k, i | k in m && 0 <= i < |m[k]|
        ensures m[k][i] in r
      {
        assert m[k][i] in m[k];
      }
    }
    r
  }

  /** The `extend` loop one key at a time: whichever key is taken first,
      the paths collected are its list's and those of the other keys. */
  lemma AllPathsExtend(m: Matches, k: string)
    requires k in m
    ensures AllPaths(m) == AllPaths(m - {k}) + (set p | p in m[k])
  {
    forall p | p in AllPaths(m) && p !in m[k]
      ensures p in AllPaths(m - {k})
    {
      var j :| j in m && p in m[j];
      assert j != k && j in m - {k} && p in (m - {k})[j];
    }
    forall p | p in AllPaths(m - {k})
      ensures p in AllPaths(m)
    {
      var j :| j in m - {k} && p in (m - {k})[j];
      assert j in m && p in m[j];
    }
  }

  predicate NoDuplicates(s: seq<string>) {
    forall i, j :: 0 <= i < j < |s| ==> s[i] != s[j]
  }

  /** Every list of the dictionary is free of repeats. */
  ghost predicate ListsDistinct(m: Matches) {
    forall k :: k in m ==> NoDuplicates(m[k])
  }

  /** A listed path without a `/` can only sit under the empty root, where
      `join` returns the bare name. With file names free of `/`, this is what
      makes the as-written check harmless for membership. */
  ghost predicate BareOnlyAtEmptyRoot(m: Matches) {
    forall k, p :: k in m && p in m[k] && '/' !in p ==> k == ""
  }

  ghost predicate SlashFreeNames(names: seq<string>) {
    forall n :: n in names ==> '/' !in n
  }

  /** `if root not in matches: matches[root] = []`. */
  function EnsureKey(m: Matches, k: string): (r: Matches)
    ensures r.Keys == m.Keys + {k}
    ensures forall j :: j in m ==> r[j] == m[j]
    ensures k !in m ==> r[k] == []
    ensures AllPaths(r) == AllPaths(m)
    ensures BareOnlyAtEmptyRoot(m) ==> BareOnlyAtEmptyRoot(r)
    ensures ListsDistinct(m) ==> ListsDistinct(r)
  {
    if k in m then m
    else
      var r := m[k := []];
      assert forall p :: p in AllPaths(r) ==> p in AllPaths(m) by {
        forall p | p in AllPaths(r)
          ensures p in AllPaths(m)
        {
          var j :| j in r && p in r[j];
          assert j != k;
        }
      }
      r
  }

  /** The check before appending `join(root, name)` to `listed`. As
      written it never fires on a list of joined paths, since a bare name
      holds no `/` and they all do; corrected, it skips exactly the appends
      that would repeat a path. */
  function AlreadyListed(listed: seq<string>, root: string, name: string, guard: Guard): (r: bool)
    ensures guard == AsWritten && '/' !in name && (forall p :: p in listed ==> '/' in p) ==> !r
    ensures guard == Corrected && NoDuplicates(listed) ==> (!r <==> NoDuplicates(listed + [Join(root, name)]))
  {
    AppendRepeats(listed, Join(root, name));
    match guard
    case AsWritten => name in listed
    case Corrected => Join(root, name) in listed
  }

  /** Appending to a repeat-free list repeats a path exactly when the list
      already holds it. */
  lemma AppendRepeats(listed: seq<string>, p: string)
    ensures NoDuplicates(listed) ==> (p in listed <==> !NoDuplicates(listed + [p]))
  {
    if NoDuplicates(listed) && p in listed {
      var i :| 0 <= i < |listed| && listed[i] == p;
      assert (listed + [p])[i] == (listed + [p])[|listed|];
    }
  }

  /** Joining a `/`-free name to a non-empty root gives a path with a `/`. */
  lemma JoinUnderRootHasSlash(root: string, name: string)
    requires root != "" && '/' !in name
    ensures '/' in Join(root, name)
  {
    var j := Join(root, name);
    if root[|root| - 1] == '/' {
      assert j[|root| - 1] == '/';
    } else {
      assert j[|root|] == '/';
    }
  }

  /** A `/`-free name joined to the empty root is the name itself. */
  lemma JoinEmptyRoot(name: string)
    requires '/' !in name
    ensures Join("", name) == name
  {
    if |name| > 0 {
      assert name[0] in name;
    }
  }

  /** The inner loop of `update_matches` for one walked root. */
  function AddFiles(m: Matches, root: string, names: seq<string>, guard: Guard): (r: Matches)
    requires root in m
    ensures r.Keys == m.Keys
    ensures forall p :: p in AllPaths(m) ==> p in AllPaths(r)
    ensures forall p :: p in AllPaths(r) ==> p in AllPaths(m) || exists n :: n in names && p == Join(root, n)
    ensures guard == Corrected || (SlashFreeNames(names) && BareOnlyAtEmptyRoot(m)) ==>
              forall n :: n in names ==> Join(root, n) in AllPaths(r)
    ensures SlashFreeNames(names) && BareOnlyAtEmptyRoot(m) ==> BareOnlyAtEmptyRoot(r)
    ensures guard == Corrected && ListsDistinct(m) ==> ListsDistinct(r)
    decreases |names|
  {
    if names == [] then m
    else
      var name := names[0];
      var p := Join(root, name);
      var m' := if AlreadyListed(m[root], root, name, guard) then m else m[root := m[root] + [p]];
      AddFilesStep(m, root, name, guard);
      var r := AddFiles(m', root, names[1..], guard);
      assert forall n :: n in names[1..] ==> n in names;
      r
  }

  /** One append of `AddFiles` keeps the listed paths, adds the new one, and
      keeps the invariants. */
  lemma AddFilesStep(m: Matches, root: string, name: string, guard: Guard)
    requires root in m
    ensures var m' := if AlreadyListed(m[root], root, name, guard) then m else m[root := m[root] + [Join(root, name)]];
            && m'.Keys == m.Keys
            && (forall p :: p in AllPaths(m') <==> p in AllPaths(m) || (p == Join(root, name) && !AlreadyListed(m[root], root, name, guard)))
            && (guard == Corrected || ('/' !in name && BareOnlyAtEmptyRoot(m)) ==> Join(root, name) in AllPaths(m'))
            && ('/' !in name && BareOnlyAtEmptyRoot(m) ==> BareOnlyAtEmptyRoot(m'))
            && (guard == Corrected && ListsDistinct(m) ==> ListsDistinct(m'))
  {
    var p := Join(root, name);
    if !AlreadyListed(m[root], root, name, guard) {
      AppendKeepsPaths(m, root, p);
      if '/' !in name && BareOnlyAtEmptyRoot(m) {
        if root != "" {
          JoinUnderRootHasSlash(root, name);
        }
        AppendKeepsBare(m, root, p);
      }
      if guard == Corrected && ListsDistinct(m) {
        AppendKeepsDistinct(m, root, p);
      }
    } else if guard == AsWritten && '/' !in name && BareOnlyAtEmptyRoot(m) {
      assert name in m[root];
      assert root == "";
      JoinEmptyRoot(name);
    }
  }

  /** Appending `p` under `root` adds `p` to the listed paths and nothing
      else. */
  lemma AppendKeepsPaths(m: Matches, root: string, p: string)
    requires root in m
    ensures var m' := m[root := m[root] + [p]];
            m'.Keys == m.Keys && forall q :: q in AllPaths(m') <==> q in AllPaths(m) || q == p
  {
    var m' := m[root := m[root] + [p]];
    assert p in m'[root];
    forall q | q in AllPaths(m)
      ensures q in AllPaths(m')
    {
      var k :| k in m && q in m[k];
      assert q in m'[k];
    }
    forall q | q in AllPaths(m') && q != p
      ensures q in AllPaths(m)
    {
      var k :| k in m' && q in m'[k];
      assert q in m[k];
    }
  }

  lemma AppendKeepsBare(m: Matches, root: string, p: string)
    requires root in m && BareOnlyAtEmptyRoot(m) && (root == "" || '/' in p)
    ensures BareOnlyAtEmptyRoot(m[root := m[root] + [p]])
  {
    var m' := m[root := m[root] + [p]];
    forall k, q | k in m' && q in m'[k] && '/' !in q
      ensures k == ""
    {
      if k != root || q != p {
        assert q in m[k];
      }
    }
  }

  lemma AppendKeepsDistinct(m: Matches, root: string, p: string)
    requires root in m && ListsDistinct(m) && p !in m[root]
    ensures ListsDistinct(m[root := m[root] + [p]])
  {
    AppendRepeats(m[root], p);
  }


  /** Some walked root of `entries` holds a name ending with `ext` whose
      joined path is `p`. */
  ghost predicate InEntries(entries: seq<WalkEntry>, ext: string, p: string) {
    exists e, n :: e in entries && n in e.filenames && EndsWith(n, ext) && p == Join(e.root, n)
  }

  ghost predicate SlashFreeEntries(entries: seq<WalkEntry>) {
    forall e :: e in entries ==> SlashFreeNames(e.filenames)
  }

  /** The loop of `update_matches` over the triples of one walk. */
  function AddEntries(m: Matches, entries: seq<WalkEntry>, ext: string, guard: Guard): (r: Matches)
    ensures m.Keys <= r.Keys
    ensures forall p :: p in AllPaths(m) ==> p in AllPaths(r)
    ensures forall p :: p in AllPaths(r) ==> p in AllPaths(m) || InEntries(entries, ext, p)
    ensures guard == Corrected || (SlashFreeEntries(entries) && BareOnlyAtEmptyRoot(m)) ==>
              forall p :: InEntries(entries, ext, p) ==> p in AllPaths(r)
    ensures SlashFreeEntries(entries) && BareOnlyAtEmptyRoot(m) ==> BareOnlyAtEmptyRoot(r)
    ensures guard == Corrected && ListsDistinct(m) ==> ListsDistinct(r)
    decreases |entries|
  {
    if entries == [] then m
    else
      var e := entries[0];
      var names := FilterSuffix(e.filenames, ext);
      var m1 := AddFiles(EnsureKey(m, e.root), e.root, names, guard);
      var r := AddEntries(m1, entries[1..], ext, guard);
      assert SlashFreeEntries(entries) ==> SlashFreeNames(names) && SlashFreeEntries(entries[1..]);
      assert forall p :: p in AllPaths(r) ==> p in AllPaths(m) || InEntries(entries, ext, p) by {
        forall p | p in AllPaths(r)
          ensures p in AllPaths(m) || InEntries(entries, ext, p)
        {
          if p !in AllPaths(m1) {
            var e', n :| e' in entries[1..] && n in e'.filenames && EndsWith(n, ext) && p == Join(e'.root, n);
            assert e' in entries;
          } else if p !in AllPaths(m) {
            var n :| n in names && p == Join(e.root, n);
            assert e in entries;
          }
        }
      }
      assert guard == Corrected || (SlashFreeEntries(entries) && BareOnlyAtEmptyRoot(m)) ==>
               forall p :: InEntries(entries, ext, p) ==> p in AllPaths(r) by {
        if guard == Corrected || (SlashFreeEntries(entries) && BareOnlyAtEmptyRoot(m)) {
          forall p | InEntries(entries, ext, p)
            ensures p in AllPaths(r)
          {
            var e', n :| e' in entries && n in e'.filenames && EndsWith(n, ext) && p == Join(e'.root, n);
            if e' != e {
              assert e' in entries[1..];
            } else {
              assert n in names;
            }
          }
        }
      }
      r
  }

  /** `update_matches(matches, directory, extension)`: the directory gets a
      key, no listed path is lost, and the paths added are the joined paths
      of the walk's names that end with the extension; all of them are
      listed with the corrected check, and with the check as written when
      the names are `/`-free. */
  function UpdateMatches(m: Matches, directory: string, ext: string, walk: Walk, guard: Guard): (r: Matches)
    ensures directory in r && m.Keys <= r.Keys
    ensures forall p :: p in AllPaths(m) ==> p in AllPaths(r)
    ensures forall p :: p in AllPaths(r) ==> p in AllPaths(m) || InEntries(walk(directory), ext, p)
    ensures guard == Corrected || (SlashFreeEntries(walk(directory)) && BareOnlyAtEmptyRoot(m)) ==>
              forall p :: InEntries(walk(directory), ext, p) ==> p in AllPaths(r)
    ensures SlashFreeEntries(walk(directory)) && BareOnlyAtEmptyRoot(m) ==> BareOnlyAtEmptyRoot(r)
    ensures guard == Corrected && ListsDistinct(m) ==> ListsDistinct(r)
  {
    AddEntries(EnsureKey(m, directory), walk(directory), ext, guard)
  }

  /** `p` turns up when walking `directory` and filtering by some of `exts`. */
  ghost predicate FoundUnder(directory: string, exts: seq<string>, walk: Walk, p: string) {
    exists x :: x in exts && InEntries(walk(directory), x, p)
  }

  /** The inner loop of `find_paths`: every extension for one directory. */
  function OverExtensions(m: Matches, directory: string, exts: seq<string>, walk: Walk, guard: Guard): (r: Matches)
    ensures forall p :: p in AllPaths(m) ==> p in AllPaths(r)
    ensures forall p :: p in AllPaths(r) ==> p in AllPaths(m) || FoundUnder(directory, exts, walk, p)
    ensures guard == Corrected || (SlashFreeEntries(walk(directory)) && BareOnlyAtEmptyRoot(m)) ==>
              forall p :: FoundUnder(directory, exts, walk, p) ==> p in AllPaths(r)
    ensures SlashFreeEntries(walk(directory)) && BareOnlyAtEmptyRoot(m) ==> BareOnlyAtEmptyRoot(r)
    ensures guard == Corrected && ListsDistinct(m) ==> ListsDistinct(r)
    decreases |exts|
  {
    if exts == [] then m
    else
      var m1 := UpdateMatches(m, directory, exts[0], walk, guard);
      var r := OverExtensions(m1, directory, exts[1..], walk, guard);
      assert forall p :: p in AllPaths(r) ==> p in AllPaths(m) || FoundUnder(directory, exts, walk, p) by {
        forall p | p in AllPaths(r)
          ensures p in AllPaths(m) || FoundUnder(directory, exts, walk, p)
        {
          if p !in AllPaths(m1) {
            var x :| x in exts[1..] && InEntries(walk(directory), x, p);
            assert x in exts;
          } else if p !in AllPaths(m) {
            assert exts[0] in exts;
          }
        }
      }
      assert guard == Corrected || (SlashFreeEntries(walk(directory)) && BareOnlyAtEmptyRoot(m)) ==>
               forall p :: FoundUnder(directory, exts, walk, p) ==> p in AllPaths(r) by {
        if guard == Corrected || (SlashFreeEntries(walk(directory)) && BareOnlyAtEmptyRoot(m)) {
          forall p | FoundUnder(directory, exts, walk, p)
            ensures p in AllPaths(r)
          {
            var x :| x in exts && InEntries(walk(directory), x, p);
            if x != exts[0] {
              assert x in exts[1..];
            }
          }
        }
      }
      r
  }

  /** `p` turns up when walking some of `dirs` and filtering by some of
      `exts`: the scope the registry describes. */
  ghost predicate Discovered(dirs: seq<string>, exts: seq<string>, walk: Walk, p: string) {
    exists d :: d in dirs && FoundUnder(d, exts, walk, p)
  }

  ghost predicate SlashFreeWalk(dirs: seq<string>, walk: Walk) {
    forall d :: d in dirs ==> SlashFreeEntries(walk(d))
  }

  /** The outer loop of `find_paths`: every directory in turn. */
  function OverDirectories(m: Matches, dirs: seq<string>, exts: seq<string>, walk: Walk, guard: Guard): (r: Matches)
    ensures forall p :: p in AllPaths(m) ==> p in AllPaths(r)
    ensures forall p :: p in AllPaths(r) ==> p in AllPaths(m) || Discovered(dirs, exts, walk, p)
    ensures guard == Corrected || (SlashFreeWalk(dirs, walk) && BareOnlyAtEmptyRoot(m)) ==>
              forall p :: Discovered(dirs, exts, walk, p) ==> p in AllPaths(r)
    ensures SlashFreeWalk(dirs, walk) && BareOnlyAtEmptyRoot(m) ==> BareOnlyAtEmptyRoot(r)
    ensures guard == Corrected && ListsDistinct(m) ==> ListsDistinct(r)
    decreases |dirs|
  {
    if dirs == [] then m
    else
      var m1 := OverExtensions(m, dirs[0], exts, walk, guard);
      var r := OverDirectories(m1, dirs[1..], exts, walk, guard);
      assert SlashFreeWalk(dirs, walk) ==> SlashFreeEntries(walk(dirs[0])) && SlashFreeWalk(dirs[1..], walk);
      assert forall p :: p in AllPaths(r) ==> p in AllPaths(m) || Discovered(dirs, exts, walk, p) by {
        forall p | p in AllPaths(r)
          ensures p in AllPaths(m) || Discovered(dirs, exts, walk, p)
        {
          if p !in AllPaths(m1) {
            var d :| d in dirs[1..] && FoundUnder(d, exts, walk, p);
            assert d in dirs;
          } else if p !in AllPaths(m) {
            assert dirs[0] in dirs;
          }
        }
      }
      assert guard == Corrected || (SlashFreeWalk(dirs, walk) && BareOnlyAtEmptyRoot(m)) ==>
               forall p :: Discovered(dirs, exts, walk, p) ==> p in AllPaths(r) by {
        if guard == Corrected || (SlashFreeWalk(dirs, walk) && BareOnlyAtEmptyRoot(m)) {
          forall p | Discovered(dirs, exts, walk, p)
            ensures p in AllPaths(r)
          {
            var d :| d in dirs && FoundUnder(d, exts, walk, p);
            if d != dirs[0] {
              assert d in dirs[1..];
            }
          }
        }
      }
      r
  }

  /** The `all_matches` dictionary `find_paths` builds: it lists only
      discovered paths; it lists all of them with the corrected check, or
      with the check as written when the walk yields `/`-free names; and
      with the corrected check no list repeats a path. */
  function FindMatches(dirs: seq<string>, exts: seq<string>, walk: Walk, guard: Guard): (r: Matches)
    ensures forall p :: p in AllPaths(r) ==> Discovered(dirs, exts, walk, p)
    ensures guard == Corrected || SlashFreeWalk(dirs, walk) ==>
              forall p :: Discovered(dirs, exts, walk, p) ==> p in AllPaths(r)
    ensures guard == Corrected ==> ListsDistinct(r)
  {
    assert AllPaths(map[]) == {};
    assert BareOnlyAtEmptyRoot(map[]);
    assert ListsDistinct(map[]);
    OverDirectories(map[], dirs, exts, walk, guard)
  }

  /** The paths `find_paths` returns, as the set its one caller tests
      membership in, built with the corrected duplicate check. A path is in
      it if and only if it is `join(root, name)` for a root walked under a
      registered directory and a name ending with a registered extension.
      When the walk yields `/`-free file names, as `os.walk` does, the check
      as written gives the same set. */
  function FindPaths(dirs: seq<string>, exts: seq<string>, walk: Walk): (r: set<string>)
    ensures forall p :: p in r <==> Discovered(dirs, exts, walk, p)
    ensures SlashFreeWalk(dirs, walk) ==> r == AllPaths(FindMatches(dirs, exts, walk, AsWritten))
  {
    assert AllPaths(map[]) == {};
    assert BareOnlyAtEmptyRoot(map[]);
    AllPaths(FindMatches(dirs, exts, walk, Corrected))
  }

  lemma DiscoveredMono(dirs: seq<string>, exts: seq<string>, dirs': seq<string>, exts': seq<string>, walk: Walk, p: string)
    requires forall d :: d in dirs ==> d in dirs'
    requires forall x :: x in exts ==> x in exts'
    requires Discovered(dirs, exts, walk, p)
    ensures Discovered(dirs', exts', walk, p)
  {
    var d :| d in dirs && FoundUnder(d, exts, walk, p);
    var x :| x in exts && InEntries(walk(d), x, p);
    assert FoundUnder(d, exts', walk, p);
  }

  /** Only which directories and extensions are registered matters, not their
      order or repetitions. */
  lemma ScopeIgnoresOrderAndRepeats(dirs: seq<string>, exts: seq<string>, dirs': seq<string>, exts': seq<string>, walk: Walk)
    requires forall d :: d in dirs <==> d in dirs'
    requires forall x :: x in exts <==> x in exts'
    ensures FindPaths(dirs, exts, walk) == FindPaths(dirs', exts', walk)
  {
    forall p
      ensures p in FindPaths(dirs, exts, walk) <==> p in FindPaths(dirs', exts', walk)
    {
      if Discovered(dirs, exts, walk, p) {
        DiscoveredMono(dirs, exts, dirs', exts', walk, p);
      }
      if Discovered(dirs', exts', walk, p) {
        DiscoveredMono(dirs', exts', dirs, exts, walk, p);
      }
    }
  }

  /** Each list of the corrected dictionary holds every path once. */
  lemma CorrectedListsDistinct(dirs: seq<string>, exts: seq<string>, walk: Walk)
    ensures ListsDistinct(FindMatches(dirs, exts, walk, Corrected))
  {
  }

  // ---------------------------------------------------------------------
  // The duplicate check of `update_matches`, as written and corrected

  /** A walk in which directory `t` holds one template, `a.html`. */
  function OneTemplateWalk(): Walk {
    (d: string) => if d == "t" then [WalkEntry("t", ["a.html"])] else []
  }

  lemma AddFilesOne(m: Matches, root: string, name: string, guard: Guard)
    requires root in m
    ensures AddFiles(m, root, [name], guard)
         == if AlreadyListed(m[root], root, name, guard) then m else m[root := m[root] + [Join(root, name)]]
  {
    assert [name][1..] == [];
  }

  /** One pass of the loops over `t` and `.html`. */
  lemma OnePass(m: Matches, guard: Guard)
    ensures OverExtensions(m, "t", [".html"], OneTemplateWalk(), guard)
         == AddFiles(EnsureKey(m, "t"), "t", ["a.html"], guard)
  {
    var walk := OneTemplateWalk();
    var e := WalkEntry("t", ["a.html"]);
    var m' := EnsureKey(m, "t");
    OverOneExtension(m, "t", ".html", walk, guard);
    assert UpdateMatches(m, "t", ".html", walk, guard) == AddEntries(m', [e], ".html", guard) by {
      assert walk("t") == [e];
    }
    AddOneEntry(m', e, ".html", guard);
    assert EnsureKey(m', "t") == m';
    assert FilterSuffix(e.filenames, ".html") == ["a.html"] by {
      assert EndsWith("a.html", ".html");
      assert e.filenames[1..] == [];
    }
  }

  lemma OverOneExtension(m: Matches, directory: string, ext: string, walk: Walk, guard: Guard)
    ensures OverExtensions(m, directory, [ext], walk, guard) == UpdateMatches(m, directory, ext, walk, guard)
  {
    assert [ext][1..] == [];
  }

  lemma AddOneEntry(m: Matches, e: WalkEntry, ext: string, guard: Guard)
    ensures AddEntries(m, [e], ext, guard) == AddFiles(EnsureKey(m, e.root), e.root, FilterSuffix(e.filenames, ext), guard)
  {
    assert [e][1..] == [];
  }

  /** Both passes of the loops for the directory list `["t", "t"]`. */
  lemma TwoPasses(guard: Guard)
    ensures var m1 := AddFiles(map["t" := []], "t", ["a.html"], guard);
            FindMatches(["t", "t"], [".html"], OneTemplateWalk(), guard) == AddFiles(m1, "t", ["a.html"], guard)
  {
    var walk := OneTemplateWalk();
    var m0: Matches := map["t" := []];
    OnePass(map[], guard);
    assert EnsureKey(map[], "t") == m0;
    var m1 := AddFiles(m0, "t", ["a.html"], guard);
    OnePass(m1, guard);
    assert EnsureKey(m1, "t") == m1;
    var m2 := AddFiles(m1, "t", ["a.html"], guard);
    assert ["t", "t"][1..] == ["t"] && ["t"][1..] == [];
    assert OverDirectories(m2, [], [".html"], walk, guard) == m2;
    assert OverDirectories(m1, ["t"], [".html"], walk, guard) == m2;
  }

  /** As written, registering `t` twice lists `t/a.html` twice: the check
      compares the bare name `a.html` with the joined path `t/a.html` and
      never finds it. */
  lemma AsWrittenListsTwice()
    ensures FindMatches(["t", "t"], [".html"], OneTemplateWalk(), AsWritten) == map["t" := ["t/a.html", "t/a.html"]]
  {
    AsWrittenFirstPass();
    AsWrittenSecondPass();
    TwoPasses(AsWritten);
  }

  /** The first file walked under a root is always listed. */
  lemma AppendToEmpty(root: string, name: string, guard: Guard)
    ensures AddFiles(map[root := []], root, [name], guard) == map[root := [Join(root, name)]]
  {
    var m0: Matches := map[root := []];
    NothingListedYet(root, name, guard);
    AddFilesFresh(m0, root, name, guard);
    SingleKeyAppend(root, Join(root, name));
  }

  lemma NothingListedYet(root: string, name: string, guard: Guard)
    ensures !AlreadyListed([], root, name, guard)
  {
  }

  lemma SingleKeyAppend(root: string, p: string)
    ensures var m0: Matches := map[root := []];
            m0[root := m0[root] + [p]] == map[root := [p]]
  {
    var m0: Matches := map[root := []];
    assert m0[root] + [p] == [p];
  }

  lemma AddFilesFresh(m: Matches, root: string, name: string, guard: Guard)
    requires root in m && !AlreadyListed(m[root], root, name, guard)
    ensures AddFiles(m, root, [name], guard) == m[root := m[root] + [Join(root, name)]]
  {
    AddFilesOne(m, root, name, guard);
  }

  lemma JoinTA()
    ensures Join("t", "a.html") == "t/a.html"
  {
    JoinAtSeam("t", "a.html");
  }

  lemma AsWrittenFirstPass()
    ensures AddFiles(map["t" := []], "t", ["a.html"], AsWritten) == map["t" := ["t/a.html"]]
  {
    AppendToEmpty("t", "a.html", AsWritten);
    JoinTA();
  }

  lemma AsWrittenSecondPass()
    ensures AddFiles(map["t" := ["t/a.html"]], "t", ["a.html"], AsWritten) == map["t" := ["t/a.html", "t/a.html"]]
  {
    var m1: Matches := map["t" := ["t/a.html"]];
    assert Join("t", "a.html") == "t/a.html";
    AddFilesOne(m1, "t", "a.html", AsWritten);
    assert "a.html" != "t/a.html";
    assert !AlreadyListed(m1["t"], "t", "a.html", AsWritten);
    assert m1["t"] + ["t/a.html"] == ["t/a.html", "t/a.html"];
  }

  /** Corrected, the second pass finds `t/a.html` already listed. */
  lemma CorrectedListsOnce()
    ensures FindMatches(["t", "t"], [".html"], OneTemplateWalk(), Corrected) == map["t" := ["t/a.html"]]
  {
    CorrectedFirstPass();
    CorrectedSecondPass();
    TwoPasses(Corrected);
  }

  lemma CorrectedFirstPass()
    ensures AddFiles(map["t" := []], "t", ["a.html"], Corrected) == map["t" := ["t/a.html"]]
  {
    AppendToEmpty("t", "a.html", Corrected);
    JoinTA();
  }

  lemma CorrectedSecondPass()
    ensures AddFiles(map["t" := ["t/a.html"]], "t", ["a.html"], Corrected) == map["t" := ["t/a.html"]]
  {
    var m1: Matches := map["t" := ["t/a.html"]];
    assert Join("t", "a.html") == "t/a.html";
    AddFilesOne(m1, "t", "a.html", Corrected);
    assert AlreadyListed(m1["t"], "t", "a.html", Corrected);
  }
}

=== FILE: text.dfy ===
/** String helpers with Python's `str` semantics: suffix test,
    `sep.join(parts)` and `s.split(sep)` for a one-character separator. */
module Text {
  import opened Wrappers

  /** Python truthiness of an optional string argument: neither `None` nor
      `''`. */
  predicate Truthy(arg: Option<string>) {
    arg.Some? && arg.value != ""
  }

  /** `s.endswith(suffix)`. */
  predicate EndsWith(s: string, suffix: string) {
    |suffix| <= |s| && s[|s| - |suffix|..] == suffix
  }

  /** `sep.join(parts)`; the empty list joins to the empty string. */
  function JoinWith(parts: seq<string>, sep: char): string {
    if |parts| == 0 then ""
    else if |parts| == 1 then parts[0]
    else parts[0] + [sep] + JoinWith(parts[1..], sep)
  }

  /** `s.split(sep)`: never empty, no piece holds the separator, and joining
      the pieces back with the separator gives `s` again. */
  function SplitOn(s: string, sep: char): (parts: seq<string>)
    ensures |parts| >= 1
    ensures forall i :: 0 <= i < |parts| ==> sep !in parts[i]
    ensures JoinWith(parts, sep) == s
  {
    if |s| == 0 then [""]
    else
      var rest := SplitOn(s[1..], sep);
      if s[0] == sep then
        assert s == [sep] + s[1..];
        [""] + rest
      else
        var parts := [[s[0]] + rest[0]] + rest[1..];
        assert JoinWith(parts, sep) == s by {
          if |rest| == 1 {
            assert s == [s[0]] + s[1..];
          } else {
            assert parts[1..] == rest[1..];
            assert s == [s[0]] + s[1..];
          }
        }
        parts
  }

  /** Joining two non-empty lists puts exactly one separator between them. */
  lemma {:induction false} JoinWithAppend(a: seq<string>, b: seq<string>, sep: char)
    requires |a| >= 1 && |b| >= 1
    ensures JoinWith(a + b, sep) == JoinWith(a, sep) + [sep] + JoinWith(b, sep)
    decreases |a|
  {
    if |a| == 1 {
      assert (a + b)[1..] == b;
    } else {
      assert (a + b)[1..] == a[1..] + b;
      JoinWithAppend(a[1..], b, sep);
    }
  }

  /** `split` is the only way to cut a string into separator-free pieces:
      any such list that joins back to `s` is `s.split(sep)`. */
  lemma {:induction false} SplitUnique(s: string, sep: char, parts: seq<string>)
    requires |parts| >= 1
    requires forall i :: 0 <= i < |parts| ==> sep !in parts[i]
    requires JoinWith(parts, sep) == s
    ensures parts == SplitOn(s, sep)
    decreases |s|
  {
    if |parts| == 1 {
      if |s| > 0 {
        var rest := SplitOn(s[1..], sep);
        assert sep !in s;
        var tail := [parts[0][1..]];
        assert JoinWith(tail, sep) == s[1..];
        SplitUnique(s[1..], sep, tail);
        assert s[0] != sep;
        assert parts[0] == s == [s[0]] + s[1..];
      }
    } else if parts[0] == "" {
      assert s == [sep] + JoinWith(parts[1..], sep);
      assert s[1..] == JoinWith(parts[1..], sep);
      SplitUnique(s[1..], sep, parts[1..]);
    } else {
      var tail := [parts[0][1..]] + parts[1..];
      assert tail[1..] == parts[1..];
      assert s == [parts[0][0]] + (parts[0][1..] + [sep] + JoinWith(parts[1..], sep));
      assert JoinWith(tail, sep) == s[1..];
      assert sep !in tail[0];
      SplitUnique(s[1..], sep, tail);
      assert s[0] == parts[0][0] && parts[0][0] in parts[0];
      assert parts[0] == [s[0]] + tail[0];
      assert parts == [[s[0]] + tail[0]] + tail[1..];
    }
  }

  /** The last two pieces of `s.split(sep)` when `s` ends with
      `sep + a + sep + b` and neither `a` nor `b` holds the separator. */
  lemma SplitLastTwo(prefix: string, a: string, b: string, sep: char)
    requires sep !in a && sep !in b
    ensures var parts := SplitOn(prefix + [sep] + a + [sep] + b, sep);
            |parts| >= 2 && parts[|parts| - 2] == a && parts[|parts| - 1] == b
  {
    var s := prefix + [sep] + a + [sep] + b;
    var head := SplitOn(prefix, sep);
    var parts := head + [a, b];
    JoinWithAppend(head, [a, b], sep);
    assert JoinWith([a, b], sep) == a + [sep] + b;
    assert JoinWith(parts, sep) == s;
    forall i | 0 <= i < |parts|
      ensures sep !in parts[i]
    {
      if i >= |head| {
        assert parts[i] == a || parts[i] == b;
      }
    }
    SplitUnique(s, sep, parts);
  }
}

=== FILE: wrappers.dfy ===
/** Failure-compatible wrappers shared by the other modules: `Option` for a
    value that may be absent (Python's `None`), `Result` for an operation that
    either produces a value or raises. */
module Wrappers {

  datatype Option<+T> = None | Some(value: T)

  datatype Result<+R, +E> = Success(value: R) | Failure(error: E) {

    predicate IsFailure() {
      Failure?
    }

    function PropagateFailure<U>(): Result<U, E>
      requires Failure?
    {
      Failure(error)
    }

    function Extract(): R
      requires Success?
    {
      value
    }
  }
}
